=== FILE: README.md ===
# Klondike solitaire: a verified model of the game-state core

This project models the rules and state transitions of a Klondike solitaire
game (glitchcube/solitaire, TypeScript) in Dafny and proves what they
promise. It covers:

- the legality rules for tableau runs, foundations and waste moves;
- the engine's `applyMove`, `drawFromStock`, `recycleWasteToStock` and
  `isWinState`;
- building, shuffling and dealing the 52-card deck;
- the two pure drag-and-drop helpers that turn pointer locations into a
  move request or a preview of the dragged cards.

Modules follow the source files:

| module | file | source |
|---|---|---|
| `Types` | types.dfy | `src/types/game.ts`: cards, piles, board, locations, moves; plus the JavaScript `slice` and the bag of card ids |
| `Rules` | rules.dfy | `src/game/rules/moves.ts` |
| `Engine` | engine.dfy | `src/game/engine/state.ts` |
| `EngineProperties` | engine_properties.dfy | what the engine guarantees: refusal, exact effects, conservation, board shape |
| `Deck` | deck.dfy | `src/game/setup/deck.ts` |
| `Deal` | deal.dfy | `src/game/setup/deal.ts` |
| `Dnd` | dnd.dfy | `src/components/board/dnd.ts` |
| `DragPreview` | drag_preview.dfy | `src/components/board/dragPreview.ts` |

The engine clones the board, mutates the clone and returns either the clone
or the untouched input. Boards here are immutable values, so the clone is
implicit.

- Every transition is a function from the old board to the new one.
- The internal helpers (`moveTableauStack`, `moveToFoundation`,
  `moveWasteToTableau`) return `Option<GameState>`. `None` stands for their
  `false`.
- `ApplyMove` returns its input when the helper answers `None`.
  `EngineProperties.ApplyMoveOutcome` proves that "the board changed" holds
  exactly when the rules permit the move. For a tableau-to-tableau request
  "permitted" also asks that the count, if any, covers the whole run: that
  is the corrected tableau move (see Findings), not the source's.

Deck building, shuffling and dealing are loops in the source. They are
methods here, each proved equal to a specification function:

- `CreateDeck`: nested `for` loops.
- `ShuffleDeck`: in-place swaps on an `array` inside a countdown loop.
- `DealInitialBoard`: a `for` loop advancing `nextIndex`.

The random source is a parameter `draws`. `draws[i]` is the index chosen
when position `i` is filled, and `DrawsFit` requires `draws[i] <= i`. That
is the range `Math.floor(rng() * (i + 1))` yields for `rng()` in [0, 1).

The central invariant is `EngineProperties.WellFormed`:

- seven tableau piles with face-up tops;
- four foundations, each an ordered face-up suit from the Ace;
- a face-down stock and a face-up waste;
- a status that is `Won` exactly when every foundation holds 13 cards.

The deal establishes it (`Deal.DealIsWellFormed`). With the corrected
tableau move (see Findings), every engine call keeps it and keeps the
multiset of card ids (`EngineProperties.RunKeepsBoard`). A whole game,
shuffled, dealt and played in any way, therefore holds each of the 52
standard cards exactly once (`Deal.GameKeepsEveryCardOnce`). The source's
own tableau move still keeps the board well formed
(`EngineProperties.AsWrittenKeepsWellFormed`), but loses cards from the bag
of ids when a count splits the run (`EngineProperties.AsWrittenDropsCards`).

## Model

| member | source | states |
|---|---|---|
| Rules.IsRedSuit | src/game/rules/moves.ts:3-5 | hearts and diamonds are red: a suit is red exactly when it is neither clubs nor spades |
| Rules.IsAlternatingColor | src/game/rules/moves.ts:7-9 | two cards alternate exactly when one of them is black (clubs or spades) and the other is not; two cards of one suit never alternate |
| Rules.IsDescendingByOne | src/game/rules/moves.ts:11-13 | the lower card is one rank below the upper one, so the upper card is never an Ace and the lower card never a King |
| Rules.Follows | src/game/rules/moves.ts:66-69 | a card that may lie on another is of a different suit and a lower rank |
| Rules.IsValidTableauStack | src/game/rules/moves.ts:15-35 | a movable run is non-empty and both its bottom and its top card are face up (CheckTableauStack below states the whole rule) |
| Rules.IsValidTableauToTableauMove | src/game/rules/moves.ts:37-70 | a legal tableau-to-tableau move names two different existing piles and a face-up card inside the source pile (TableauMoveRule below states the whole rule) |
| Rules.CanPlaceOnFoundation | src/game/rules/moves.ts:72-80 | an accepted card is an Ace exactly when the foundation is empty (FoundationPlacement below states the whole rule) |
| Rules.IsValidToFoundationMove | src/game/rules/moves.ts:82-122 | a legal move to a foundation names an existing foundation and a tableau or waste source; from the tableau it names an existing pile and its last card, from the waste the waste is non-empty (ToFoundationRule below states the whole rule) |
| Rules.IsValidWasteMoves | src/game/rules/moves.ts:124-154 | a legal waste move needs a non-empty waste and an index of an existing tableau pile or foundation (WasteMoveRule below states the whole rule) |
| Rules.CheckTableauStack | src/game/rules/moves.ts:15-35 | the loop answers true exactly for a movable run: non-empty, all face up, each adjacent pair of alternating colour and descending by one |
| Rules.RunShape | src/game/rules/moves.ts:24-32 | along a valid run the rank at position i is the bottom rank minus i and the colour flips at every step |
| Rules.RunAtMostThirteen | src/game/rules/moves.ts:15-35 | a valid run holds at most 13 cards; one of 13 goes from King to Ace |
| Rules.RunSuffix | src/game/rules/moves.ts:54-57 | picking up any card of a valid run picks up a valid run |
| Rules.RunJoin | src/game/rules/moves.ts:66-69 | a run whose bottom card follows the top of another run forms one run with it |
| Rules.TableauMoveRule | src/game/rules/moves.ts:37-70 | a tableau-to-tableau move is legal iff the piles differ, both exist, cardIndex is inside the source, the cards from cardIndex up form a run, and its bottom card is a King on an empty pile or is of the other colour and one rank below the destination top |
| Rules.TableauMoveBuildsRun | src/game/rules/moves.ts:59-69 | after a legal tableau move the destination's face-up top and the carried cards form one run, or the run is a King-headed run on an empty pile |
| Rules.FoundationPlacement | src/game/rules/moves.ts:72-80 | on an ordered foundation a card is accepted iff its rank is the foundation's size plus one and, if the foundation is started, its suit is the foundation's suit |
| Rules.PlacementKeepsFoundationOrdered | src/game/rules/moves.ts:72-80 | a card the rule accepts keeps the foundation ordered Ace upwards in one suit |
| Rules.FoundationAtMostThirteen | src/game/rules/moves.ts:72-80 | an ordered foundation holds at most 13 cards, and a full one accepts no further card |
| Rules.ToFoundationRule | src/game/rules/moves.ts:82-122 | a move to a foundation is legal iff the foundation exists and the source is the face-up top card of an existing tableau pile or the top of a non-empty waste, and the foundation accepts that card; other source kinds are refused |
| Rules.WasteMoveRule | src/game/rules/moves.ts:124-154 | a waste move is legal iff the waste is non-empty, a pile index is given, and either the target is an existing tableau pile taking the waste top by the King-or-follows rule or an existing foundation accepting it; other kinds are refused |
| Rules.WasteToTableauIsOneCardRun | src/game/rules/moves.ts:124-143 | onto a tableau pile, the waste rule answers exactly as the tableau-to-tableau rule does for the waste top laid face up as a one-card run on a pile of its own |
| Engine.IsWinState | src/game/engine/state.ts:190-192 | a won board has 13 cards on every foundation, so all 13 times the number of foundations on them: 52 with four |
| Engine.NormalizeGameStatus | src/game/engine/state.ts:33-35 | only the status changes, and it is Won exactly when every foundation holds 13 cards |
| Engine.FinishMove | src/game/engine/state.ts:62-63 | the move count goes up by one, only count and status change, and the status says whether the board is won |
| Engine.FlipTop | src/game/engine/state.ts:27-30 | the same cards with the same ids, the top now face up and every card below it unchanged |
| Engine.WithTableauAutoFlip | src/game/engine/state.ts:21-31 | for an existing pile only that pile's top card is turned face up; a missing pile leaves the board unchanged |
| Engine.Carried | src/game/engine/state.ts:52 | the carried cards are a prefix of the run: the whole run without a count or with a count at least the run length, otherwise exactly `count` cards |
| Engine.MoveTableauStackAsWritten | src/game/engine/state.ts:37-66 | the source's move: succeeds iff the move is legal and the count is absent or positive; then the source pile is cut at cardIndex with its new top face up, the destination gains only the carried prefix of the run, every other tableau pile, the foundations, the stock and the waste are unchanged, one more move is counted and the status says whether the board is won |
| Engine.MoveTableauStack | src/game/engine/state.ts:37-66 | succeeds iff the move is legal and the count covers the whole run; then the source keeps the cards below cardIndex with its new top face up, the destination gains the run in order, every other pile, the stock and the waste are unchanged, and one move is counted |
| Engine.MoveToFoundation | src/game/engine/state.ts:68-101 | succeeds iff a foundation index is given and the foundation rule allows the move; then, from the tableau, the pile loses its top card (its new top turned face up) and the foundation gains it, or, from the waste whatever indices the request carries, the waste loses its top card and the foundation gains it; everything else is unchanged, one move is counted and the status says whether the board is won |
| Engine.MoveWasteToTableau | src/game/engine/state.ts:103-122 | succeeds iff a pile index is given and the waste rule allows the waste top onto that tableau pile; then the waste loses its top card, that pile gains it, everything else is unchanged, one move is counted and the status says whether the board is won |
| Engine.TryMove | src/game/engine/state.ts:124-157 | an accepted request counts one move and leaves a status matching whether the board is won; a request from a foundation or the stock, or to the stock or the waste, is refused |
| Engine.ApplyMove | src/game/engine/state.ts:124-157 | the result is the input itself or a board with one more move whose status matches whether it is won |
| EngineProperties.ApplyMoveOutcome | src/game/engine/state.ts:124-157 | the board changes iff the move is permitted (legal tableau-to-tableau with a count absent or covering the whole run, as in the corrected tableau move of Findings; tableau or waste to foundation; waste to tableau); then the move count rises by one and the status is recomputed; otherwise the input is returned unchanged |
| EngineProperties.ApplyTableauToTableau | src/game/engine/state.ts:51-63 | for any request whose count is absent or covers the run, whatever the target's card index, the source becomes its prefix below cardIndex with its top face up, the destination becomes old destination plus the run, every other pile, the stock and the waste are unchanged, one move is counted and the status says whether the board is won |
| EngineProperties.ApplyTableauToFoundation | src/game/engine/state.ts:80-98 | for any legal request from a tableau pile, whatever its target card index and count, the exposed card leaves its pile, whose new top is turned face up, and is appended to the foundation; nothing else moves |
| EngineProperties.ApplyWasteToFoundation | src/game/engine/state.ts:88-98 | for any legal request from the waste, whatever pile and card indices it names for the waste and whatever target card index and count, the waste top leaves the waste and is appended to the foundation; nothing else moves |
| EngineProperties.ApplyWasteToTableau | src/game/engine/state.ts:103-121 | for any legal request from the waste, whatever indices it names on the waste side, target card index or count, the waste top leaves the waste and is appended to the tableau pile; nothing else moves |
| Engine.DrawFromStock | src/game/engine/state.ts:159-175 | an empty stock is a no-op; otherwise the stock shrinks by one, the waste grows by one with a face-up top, and no move is counted |
| Engine.RecycleWasteToStock | src/game/engine/state.ts:177-188 | a no-op unless the stock is empty and the waste is not; then the stock takes as many cards as the waste had, all face down, the waste is empty, and no move is counted |
| EngineProperties.DrawEffect | src/game/engine/state.ts:159-175 | an empty stock is a no-op; otherwise the last stock card moves face up onto the waste, nothing else moves and the move count stays |
| EngineProperties.RecycleEffect | src/game/engine/state.ts:177-188 | a no-op unless the stock is empty and the waste is not; then the stock is the waste reversed and face down, the waste is empty and the move count stays |
| EngineProperties.DrawAll | src/game/engine/state.ts:159-175 | drawing a stock that is a reversed, face-down sequence card by card lays that sequence on the waste in order and empties the stock |
| EngineProperties.RecycleThenDrawAll | src/game/engine/state.ts:159-188 | recycling a face-up waste and then drawing the whole stock gives back the same waste and an empty stock without counting a move |
| EngineProperties.RelocateBag | src/game/engine/state.ts:58-61 | cutting the source at cardIndex and laying given cards on the destination removes the cut cards from the bag of ids and adds the laid ones |
| EngineProperties.RelocateConserves | src/game/engine/state.ts:51-61 | laying the whole run keeps the bag of card ids |
| EngineProperties.MoveToFoundationConserves | src/game/engine/state.ts:68-101 | a move to a foundation keeps the bag of card ids |
| EngineProperties.MoveWasteToTableauConserves | src/game/engine/state.ts:103-122 | a waste-to-tableau move keeps the bag of card ids |
| EngineProperties.ApplyMoveConserves | src/game/engine/state.ts:124-157 | with the corrected tableau move of Findings, every move request, accepted or refused, keeps the bag of card ids |
| EngineProperties.DrawConserves | src/game/engine/state.ts:159-175 | drawing keeps the bag of card ids |
| EngineProperties.RecycleConserves | src/game/engine/state.ts:177-188 | recycling keeps the bag of card ids |
| EngineProperties.ReverseMultiset | src/game/engine/state.ts:183 | reversing keeps the multiset |
| EngineProperties.AsWrittenAgrees | src/game/engine/state.ts:51-56 | when the count is absent or covers the run, the source's move and the corrected move give the same board |
| EngineProperties.AsWrittenDropsCards | src/game/engine/state.ts:51-59 | with 0 < count < run length the source's move succeeds, and the cards of the run above the first `count` are missing from the new board's bag, which is strictly smaller |
| EngineProperties.AsWrittenKeepsWellFormed | src/game/engine/state.ts:37-66 | the source's move, even with a count that splits the run, keeps a well-formed board well formed: every pile keeps its shape and the status stays consistent |
| EngineProperties.AsWrittenDropsQueen | src/game/engine/state.ts:51-59 | concrete case: a red Queen on a King, moved to an empty pile with count 1, leaves only the King on the board; the corrected move refuses |
| EngineProperties.WonMeansFourCompleteSuits | src/game/engine/state.ts:190-192 | on a well-formed board the status is Won iff each of the four foundations is one whole suit from Ace to King |
| EngineProperties.TableauMoveKeepsWellFormed | src/game/engine/state.ts:37-66 | a successful tableau-to-tableau move keeps the board well formed |
| EngineProperties.FoundationPushKeepsShape | src/game/engine/state.ts:96 | pushing an accepted face-up card keeps every foundation ordered and face up |
| EngineProperties.FinishKeepsWellFormed | src/game/engine/state.ts:62-63 | counting the move and recomputing the status makes a board with the right pile shapes well formed |
| EngineProperties.TableauToFoundationKeepsWellFormed | src/game/engine/state.ts:80-98 | moving a tableau card to a foundation keeps the board well formed |
| EngineProperties.WasteToFoundationKeepsWellFormed | src/game/engine/state.ts:88-98 | moving the waste top to a foundation keeps the board well formed |
| EngineProperties.WasteToTableauKeepsWellFormed | src/game/engine/state.ts:103-121 | moving the waste top to a tableau pile keeps the board well formed |
| EngineProperties.ApplyMoveKeepsWellFormed | src/game/engine/state.ts:124-157 | with the corrected tableau move of Findings, every move request keeps the board well formed |
| EngineProperties.DrawKeepsWellFormed | src/game/engine/state.ts:159-175 | drawing keeps the board well formed |
| EngineProperties.RecycleKeepsWellFormed | src/game/engine/state.ts:177-188 | recycling keeps the board well formed |
| EngineProperties.RunKeepsBoard | src/game/engine/state.ts:124-188 | with the corrected tableau move of Findings, any sequence of moves, draws and recycles keeps a well-formed board well formed, keeps its bag of card ids, and never lowers the move count |
| Deck.CreateDeck | src/game/setup/deck.ts:5-20 | the nested loops build exactly the standard deck |
| Deck.StandardDeckLayout | src/game/setup/deck.ts:3-20 | 52 cards, suit-major in the order clubs, diamonds, hearts, spades, ranks 1 to 13 within a suit, ids `suit-rank`, all face down |
| Deck.RankTextInjective | src/game/setup/deck.ts:11 | different ranks print as different decimal texts |
| Deck.CardIdInjective | src/game/setup/deck.ts:11 | different suit and rank pairs get different ids |
| Deck.StandardDeckIdsDistinct | src/game/setup/deck.ts:11 | no two cards of the deck share an id |
| Deck.CopyToArray | src/game/setup/deck.ts:23 | the shuffle works on a fresh array holding the input, so the input is never touched |
| Deck.SwapInPlace | src/game/setup/deck.ts:27 | the array afterwards is the old contents with positions i and j exchanged |
| Deck.ShuffleDeck | src/game/setup/deck.ts:22-31 | the result is the Fisher-Yates order the draws select, with the same length and the same cards as the input |
| Deck.ShuffleStepsPermute | src/game/setup/deck.ts:25-28 | the steps from i down to 1 keep the length and the multiset of cards |
| Deck.ShuffleStepsKeepIds | src/game/setup/deck.ts:25-28 | the steps from i down to 1 keep the multiset of ids |
| Deck.ShufflePermutes | src/game/setup/deck.ts:22-31 | the shuffle is a permutation: same length, same cards, same ids |
| Deck.Zeros | src/game/setup/deck.ts:26 | the always-zero source is a legal source |
| Deck.ShuffleStepsZeros | src/game/setup/deck.ts:25-28 | with every draw 0, the steps from i down to 1 rotate the first i + 1 cards one place left |
| Deck.ShuffleZerosRotates | src/game/setup/deck.ts:22-31 | with the always-zero source the bottom card moves to the end and the rest move down one place |
| Deck.ShuffleZerosMovesStandardDeck | src/game/setup/deck.ts:22-31 | with the always-zero source the shuffled standard deck differs from the unshuffled one |
| Deal.DealInitialBoard | src/game/setup/deal.ts:10-44 | the loop over column sizes builds exactly the dealt board |
| Deal.TriMonotone | src/game/setup/deal.ts:16-18 | the running start index never decreases, so columns never overlap |
| Deal.ColumnContents | src/game/setup/deal.ts:16-26 | from a deck of at least 28, column k holds the k + 1 cards at the next consecutive positions, in order, only the last face up |
| Deal.OnlyTopFaceUp | src/game/setup/deal.ts:20-23 | in every column exactly the top card is face up |
| Deal.StockContents | src/game/setup/deal.ts:28 | the stock is the deck from position 28, face down: 24 cards for a 52-card deck, empty for a deck of 28 or fewer |
| Deal.ColumnsPrefix | src/game/setup/deal.ts:14-26 | the first k columns, read in order, carry the deck's first Tri(k) ids |
| Deal.DealKeepsOrder | src/game/setup/deal.ts:11-28 | the columns and then the stock, read in order, carry exactly the deck's ids in the deck's order |
| Deal.FlattenEmpty | src/game/setup/deal.ts:32 | empty foundations hold no cards |
| Deal.DealIsWellFormed | src/game/setup/deal.ts:10-44 | the dealt board is well formed, holds exactly the deck's ids, and has empty foundations and waste, move count 0 and status in progress |
| Deal.NewGameHasEveryCardOnce | src/game/setup/deal.ts:10-44 | for every legal random source, dealing the shuffled standard deck gives a well-formed board with 24 stock cards holding each of the 52 standard cards exactly once |
| Deal.GameKeepsEveryCardOnce | src/game/setup/deal.ts:10-44 | for every legal random source and every sequence of moves, draws and recycles after the deal, the board is well formed and holds each of the 52 standard cards exactly once and no other card (with the corrected tableau move of Findings) |
| Dnd.CreateMoveFromDrop | src/components/board/dnd.ts:3-23 | a move exists iff both locations are given, the target is a tableau or foundation, and the two are not the same kind and index; the move's source is the dragged location, its target has the drop kind and index with no card index, and it has no count |
| Dnd.DropCarriesWholeRun | src/components/board/dnd.ts:16-22 | a dropped tableau move has no count, so the source's move and the corrected move agree on it |
| DragPreview.GetDragPreview | src/components/board/dragPreview.ts:8-47 | none for a missing location; for a tableau location, present iff both indices are given, the pile exists and cardIndex is inside it, and then exactly the pile from cardIndex up, face-up or not; for the waste, present iff the waste is non-empty, and then its top card alone; none for other kinds |
| DragPreview.DropCarriesPreviewedCards | src/components/board/dragPreview.ts:23-43 | when a drag shows a preview and its drop is carried out, the target tableau pile or foundation grows by exactly the previewed cards in order |

## Left out

- Object identity, aliasing and deep cloning (`cloneState`, `clonePile`, `next === state`) are not modelled. Boards are values, so "the input is returned" becomes equality with the input.
- `Math.random` and the floating-point scaling `Math.floor(rng() * (i + 1))` are not modelled. The shuffle takes a sequence of already-chosen indices with `draws[i] <= i`.
- Negative or fractional indices and counts are out of the model: indices and `count` are `nat`. A negative `count` would make `slice(0, count)` drop cards from the end of the run in the source.
- The tableau and foundation lists have any length in the types, as in the source's `Pile[]`. `WellFormed` is what fixes them at 7 and 4.
- Engine.MoveTableauStack: refuses a move whose `count` is below the run length, where the source cuts the whole run and lays down only `count` cards. The source's behaviour is kept as `Engine.MoveTableauStackAsWritten` (see Findings).
- Engine.ApplyMove: dispatches tableau-to-tableau requests to the corrected `MoveTableauStack`. With `count` absent or covering the run it agrees with the source (`EngineProperties.AsWrittenAgrees`).
- The React application (`src/App.tsx`), the rendering components and the features exercised only by UI tests (auto-finish, replays, persistence) are not part of this model.

## Findings

| source | as written | input that shows it | evidently intended | confidence | as-written member | corrected member |
|---|---|---|---|---|---|---|
| src/game/engine/state.ts:51-59 | with `count` given and smaller than the run, the source pile is cut at `cardIndex` but only the first `count` cards are laid on the destination | tableau `[[King of spades, Queen of hearts], []]`, move from pile 0 card 0 to pile 1 with count 1: the King lands on pile 1 and the Queen is on no pile | the cards removed from the source are exactly the cards laid on the destination, so no card is lost; the corrected move refuses a count that would split the run | not executed; proved on the model | EngineProperties.AsWrittenDropsQueen | Engine.MoveTableauStack |

=== FILE: deal.dfy ===
/** Dealing the opening board (src/game/setup/deal.ts): columns of 1 to 7
    cards from the front of the deck, each with only its top card face up,
    and the rest of the deck face down in the stock. */
module Deal {
  import opened Types
  import opened Engine
  import opened EngineProperties
  import opened Deck

  /** 0 + 1 + ... + n: how many cards the first n columns take. */
  function Tri(n: nat): nat {
    if n == 0 then 0 else Tri(n - 1) + n
  }

  function Min(a: nat, b: nat): nat {
    if a <= b then a else b
  }

  /** The same cards with only the last one face up. */
  function MarkTop(cards: seq<Card>): seq<Card> {
    seq(|cards|, i requires 0 <= i < |cards| => cards[i].(faceUp := i == |cards| - 1))
  }

  /** Column k (0-based) takes the k + 1 cards after the first k columns. */
  function Column(deck: seq<Card>, k: nat): seq<Card> {
    MarkTop(Slice(FaceDown(deck), Tri(k), Tri(k + 1)))
  }

  function DealtColumns(deck: seq<Card>): seq<Pile> {
    seq(7, k requires 0 <= k < 7 => Pile(Tableau, Column(deck, k)))
  }

  function EmptyFoundations(): seq<Pile> {
    seq(4, _ => Pile(Foundation, []))
  }

  /** The board dealInitialBoard returns for `deck`. */
  function DealtBoard(deck: seq<Card>): GameState {
    var workingDeck := FaceDown(deck);
    GameState(DealtColumns(deck), EmptyFoundations(),
              Pile(Stock, FaceDown(Slice(workingDeck, Tri(7), |workingDeck|))),
              Pile(Waste, []), 0, InProgress)
  }

  method DealInitialBoard(deck: seq<Card>) returns (state: GameState)
    ensures state == DealtBoard(deck)
  {
    var workingDeck := FaceDown(deck);
    var tableau: seq<Pile> := [];
    var nextIndex := 0;
    for columnSize := 1 to 8
      invariant nextIndex == Tri(columnSize - 1)
      invariant tableau == DealtColumns(deck)[..columnSize - 1]
    {
      var cardsForColumn := Slice(workingDeck, nextIndex, nextIndex + columnSize);
      nextIndex := nextIndex + columnSize;
      var columnCards := MarkTop(cardsForColumn);
      tableau := tableau + [Pile(Tableau, columnCards)];
    }
    var stockCards := FaceDown(Slice(workingDeck, nextIndex, |workingDeck|));
    state := GameState(tableau, EmptyFoundations(), Pile(Stock, stockCards), Pile(Waste, []), 0, InProgress);
  }

  // ---------------------------------------------------------------------
  // The shape of the deal

  lemma TriValues()
    ensures Tri(0) == 0 && Tri(1) == 1 && Tri(2) == 3 && Tri(3) == 6
    ensures Tri(4) == 10 && Tri(5) == 15 && Tri(6) == 21 && Tri(7) == 28
  {
  }

  /** Tri is monotone, so the columns never overlap. */
  lemma {:induction false} TriMonotone(j: nat, k: nat)
    requires j <= k
    ensures Tri(j) <= Tri(k)
    decreases k
  {
    if j < k {
      TriMonotone(j, k - 1);
    }
  }

  /** From a deck of at least 28 cards, column k holds the k + 1 cards at
      positions Tri(k), ..., Tri(k) + k, in deck order, and only the last of
      them is face up. */
  lemma ColumnContents(deck: seq<Card>, k: nat)
    requires |deck| >= 28 && k < 7
    ensures var column := DealtBoard(deck).tableau[k].cards;
      |column| == k + 1 &&
      forall i :: 0 <= i <= k ==> column[i] == deck[Tri(k) + i].(faceUp := i == k)
  {
    var start := Tri(k);
    assert Tri(k + 1) == start + k + 1;
    TriMonotone(k + 1, 7);
    TriValues();
    var x := FaceDown(deck);
    var slice := x[start..start + k + 1];
    assert Slice(x, start, Tri(k + 1)) == slice;
    assert Column(deck, k) == MarkTop(slice);
    var column := DealtBoard(deck).tableau[k].cards;
    assert column == Column(deck, k);
    forall i | 0 <= i <= k
      ensures column[i] == deck[start + i].(faceUp := i == k)
    {
      assert slice[i] == x[start + i];
    }
  }

  /** Whatever the deck, every column has exactly one face-up card, its
      top, unless the deck ran out before it. */
  lemma OnlyTopFaceUp(deck: seq<Card>, k: nat)
    requires k < 7
    ensures var column := DealtBoard(deck).tableau[k].cards;
      forall i :: 0 <= i < |column| ==> (column[i].faceUp <==> i == |column| - 1)
  {
  }

  /** The stock is the deck from position 28 on, face down: 24 cards for a
      52-card deck. Shorter decks leave it empty. */
  lemma StockContents(deck: seq<Card>)
    ensures |deck| >= 28 ==> DealtBoard(deck).stock.cards == FaceDown(deck[28..])
    ensures |deck| <= 28 ==> DealtBoard(deck).stock.cards == []
    ensures AllFaceDown(DealtBoard(deck).stock.cards)
    ensures |deck| == 52 ==> |DealtBoard(deck).stock.cards| == 24
  {
    TriValues();
    if |deck| >= 28 {
      assert FaceDown(deck)[28..] == FaceDown(deck[28..]);
    }
  }

  // ---------------------------------------------------------------------
  // Every card dealt exactly once

  lemma MarkTopIds(cards: seq<Card>)
    ensures Ids(MarkTop(cards)) == Ids(cards)
  {
  }

  lemma IdsSlice(cards: seq<Card>, a: nat, b: nat)
    requires a <= b <= |cards|
    ensures Ids(cards[a..b]) == Ids(cards)[a..b]
  {
  }

  /** The first k columns, one after another, are the first Tri(k) cards
      of the deck (or the whole deck when it is shorter). */
  lemma {:induction false} ColumnsPrefix(deck: seq<Card>, k: nat)
    requires k <= 7
    ensures Ids(Flatten(DealtColumns(deck)[..k])) == Ids(deck)[..Min(Tri(k), |deck|)]
    decreases k
  {
    var x := FaceDown(deck);
    IdsFaceDown(deck);
    if k == 0 {
      assert DealtColumns(deck)[..0] == [];
    } else {
      var cols := DealtColumns(deck);
      assert cols[..k][..k - 1] == cols[..k - 1];
      ColumnsPrefix(deck, k - 1);
      var a := Min(Tri(k - 1), |x|);
      var b := Min(Tri(k), |x|);
      assert a <= b;
      var column := cols[k - 1].cards;
      assert column == MarkTop(x[a..b]);
      MarkTopIds(x[a..b]);
      IdsSlice(x, a, b);
      IdsAppend(Flatten(cols[..k - 1]), column);
      assert Ids(x)[..a] + Ids(x)[a..b] == Ids(x)[..b];
    }
  }

  /** Reading the columns in order and then the stock gives back the deck's
      cards in their original order. */
  lemma DealKeepsOrder(deck: seq<Card>)
    ensures Ids(Flatten(DealtBoard(deck).tableau) + DealtBoard(deck).stock.cards) == Ids(deck)
  {
    var x := FaceDown(deck);
    var b := DealtBoard(deck);
    TriValues();
    ColumnsPrefix(deck, 7);
    assert DealtColumns(deck)[..7] == b.tableau;
    var m := Min(28, |deck|);
    assert b.stock.cards == FaceDown(x[m..]);
    IdsFaceDown(x[m..]);
    IdsFaceDown(deck);
    IdsSlice(x, m, |x|);
    IdsAppend(Flatten(b.tableau), b.stock.cards);
    assert Ids(deck)[..m] + Ids(deck)[m..] == Ids(deck);
  }

  lemma {:induction false} FlattenEmpty(ps: seq<Pile>)
    requires forall i :: 0 <= i < |ps| ==> ps[i].cards == []
    ensures Flatten(ps) == []
    decreases |ps|
  {
    if |ps| > 0 {
      FlattenEmpty(ps[..|ps| - 1]);
    }
  }

  /** The opening board holds each card of the deck once, and is a
      well-formed board: seven columns with face-up tops, four empty
      foundations, a face-down stock, an empty waste, no moves yet. */
  lemma DealIsWellFormed(deck: seq<Card>)
    ensures var b := DealtBoard(deck);
      WellFormed(b) && Bag(b) == multiset(Ids(deck)) &&
      (forall f :: 0 <= f < 4 ==> b.foundations[f].cards == []) &&
      b.waste.cards == [] && b.moveCount == 0 && b.status == InProgress
  {
    var b := DealtBoard(deck);
    FlattenEmpty(b.foundations);
    StockContents(deck);
    DealKeepsOrder(deck);
    CardsBagAppend(Flatten(b.tableau), b.stock.cards);
    assert !IsWinState(b) by {
      assert |b.foundations[0].cards| == 0;
    }
    forall k | 0 <= k < 7
      ensures |b.tableau[k].cards| > 0 ==> Top(b.tableau[k].cards).faceUp
    {
      OnlyTopFaceUp(deck, k);
    }
  }

  // ---------------------------------------------------------------------
  // A new game: shuffle the standard deck, then deal it

  lemma {:induction false} DistinctOnce(s: seq<string>, i: nat)
    requires i < |s|
    requires forall p, q :: 0 <= p < q < |s| ==> s[p] != s[q]
    ensures multiset(s)[s[i]] == 1
    decreases |s|
  {
    var n := |s|;
    var front := s[..n - 1];
    assert s == front + [s[n - 1]];
    if i == n - 1 {
      assert s[i] !in front;
      assert multiset(front)[s[i]] == 0;
    } else {
      DistinctOnce(front, i);
      assert front[i] == s[i];
    }
  }

  /** However the source draws, the dealt board is well formed, holds 24
      cards in the stock and holds each of the 52 standard cards exactly
      once. */
  lemma NewGameHasEveryCardOnce(draws: seq<nat>)
    requires DrawsFit(52, draws)
    ensures var b := DealtBoard(Shuffle(StandardDeck(), draws));
      WellFormed(b) && |b.stock.cards| == 24 &&
      Bag(b) == multiset(Ids(StandardDeck())) &&
      forall c :: 0 <= c < 52 ==> Bag(b)[StandardDeck()[c].id] == 1
  {
    var d := StandardDeck();
    StandardDeckLayout();
    var shuffled := Shuffle(d, draws);
    ShufflePermutes(d, draws);
    DealIsWellFormed(shuffled);
    StockContents(shuffled);
    StandardDeckIdsDistinct();
    forall c | 0 <= c < 52
      ensures multiset(Ids(d))[d[c].id] == 1
    {
      DistinctOnce(Ids(d), c);
    }
  }

  /** A whole game: shuffle the standard deck however the source draws,
      deal it, then play any sequence of moves, draws and recycles. The
      board stays well formed and still holds each of the 52 standard cards
      exactly once, and nothing else. */
  lemma GameKeepsEveryCardOnce(draws: seq<nat>, actions: seq<Action>)
    requires DrawsFit(52, draws)
    ensures var b := Run(DealtBoard(Shuffle(StandardDeck(), draws)), actions);
      WellFormed(b) && Bag(b) == multiset(Ids(StandardDeck())) &&
      forall c :: 0 <= c < 52 ==> Bag(b)[StandardDeck()[c].id] == 1
  {
    var dealt := DealtBoard(Shuffle(StandardDeck(), draws));
    NewGameHasEveryCardOnce(draws);
    RunKeepsBoard(dealt, actions);
  }
}

=== FILE: deck.dfy ===
/** Building and shuffling the 52-card deck (src/game/setup/deck.ts).

    The random source is a parameter: `draws[i]` is the index the source
    yields at the step that fills position `i`, and the source's contract
    (a number in [0, 1) scaled by i + 1 and floored) becomes draws[i] <= i. */
module Deck {
  import opened Types

  /** The suits in the order the deck is built. */
  const Suits: seq<Suit> := [Clubs, Diamonds, Hearts, Spades]

  function SuitName(suit: Suit): string {
    match suit
    case Clubs => "clubs"
    case Diamonds => "diamonds"
    case Hearts => "hearts"
    case Spades => "spades"
  }

  function Digit(d: nat): char
    requires d < 10
  {
    ('0' as int + d) as char
  }

  /** The decimal text of a rank, as a template literal prints it. */
  function RankText(rank: Rank): string {
    if rank < 10 then [Digit(rank)] else ['1', Digit(rank - 10)]
  }

  /** The id of a card: suit name, a hyphen, the rank in decimal. */
  function CardId(suit: Suit, rank: Rank): string {
    SuitName(suit) + "-" + RankText(rank)
  }

  /** The deck createDeck builds: suit by suit, Ace to King within a suit,
      every card face down. */
  function StandardDeck(): seq<Card> {
    seq(52, k requires 0 <= k < 52 => Card(CardId(Suits[k / 13], k % 13 + 1), Suits[k / 13], k % 13 + 1, false))
  }

  method CreateDeck() returns (deck: seq<Card>)
    ensures deck == StandardDeck()
  {
    deck := [];
    for si := 0 to |Suits|
      invariant deck == StandardDeck()[..13 * si]
    {
      var suit := Suits[si];
      for rank := 1 to 14
        invariant deck == StandardDeck()[..13 * si + rank - 1]
      {
        deck := deck + [Card(CardId(suit, rank), suit, rank, false)];
      }
    }
  }

  /** 52 cards in suit-major order (clubs, diamonds, hearts, spades), ranks
      ascending within each suit, each id built from its suit and rank, all
      face down. */
  lemma StandardDeckLayout()
    ensures |StandardDeck()| == 52
    ensures forall si, rank: Rank :: 0 <= si < 4 ==>
      StandardDeck()[13 * si + rank - 1] == Card(CardId(Suits[si], rank), Suits[si], rank, false)
    ensures AllFaceDown(StandardDeck())
  {
    forall si, rank: Rank | 0 <= si < 4
      ensures StandardDeck()[13 * si + rank - 1] == Card(CardId(Suits[si], rank), Suits[si], rank, false)
    {
      var k := 13 * si + rank - 1;
      assert k / 13 == si && k % 13 == rank - 1;
    }
  }

  lemma RankTextInjective(a: Rank, b: Rank)
    requires RankText(a) == RankText(b)
    ensures a == b
  {
    if a < 10 && b < 10 {
      assert RankText(a)[0] == RankText(b)[0];
    } else if a >= 10 && b >= 10 {
      assert RankText(a)[1] == RankText(b)[1];
    }
  }

  /** An id starts with the first letter of its suit, and those four
      letters differ. */
  lemma CardIdFirstLetter(suit: Suit, rank: Rank)
    ensures CardId(suit, rank)[0] == SuitName(suit)[0]
    ensures SuitName(suit)[0] == match suit case Clubs => 'c' case Diamonds => 'd' case Hearts => 'h' case Spades => 's'
  {
  }

  /** Different (suit, rank) pairs get different ids. */
  lemma CardIdInjective(s1: Suit, r1: Rank, s2: Suit, r2: Rank)
    requires CardId(s1, r1) == CardId(s2, r2)
    ensures s1 == s2 && r1 == r2
  {
    CardIdFirstLetter(s1, r1);
    CardIdFirstLetter(s2, r2);
    if s1 == s2 {
      var prefix := SuitName(s1) + "-";
      assert CardId(s1, r1)[|prefix|..] == RankText(r1);
      assert CardId(s2, r2)[|prefix|..] == RankText(r2);
      RankTextInjective(r1, r2);
    }
  }

  /** No two cards of the deck share an id. */
  lemma StandardDeckIdsDistinct()
    ensures forall i, j :: 0 <= i < j < |StandardDeck()| ==> StandardDeck()[i].id != StandardDeck()[j].id
  {
    var d := StandardDeck();
    forall i, j | 0 <= i < j < |d|
      ensures d[i].id != d[j].id
    {
      if d[i].id == d[j].id {
        CardIdInjective(d[i].suit, d[i].rank, d[j].suit, d[j].rank);
      }
    }
  }

  // ---------------------------------------------------------------------
  // Shuffling

  /** `draws` holds a legal index for every step: draws[i] <= i. */
  predicate DrawsFit(n: nat, draws: seq<nat>) {
    |draws| == n && forall i :: 0 < i < n ==> draws[i] <= i
  }

  function Swap<T>(s: seq<T>, i: nat, j: nat): (r: seq<T>)
    requires i < |s| && j < |s|
    ensures |r| == |s|
  {
    s[i := s[j]][j := s[i]]
  }

  lemma SwapPermutes<T>(s: seq<T>, i: nat, j: nat)
    requires i < |s| && j < |s|
    ensures multiset(Swap(s, i, j)) == multiset(s)
  {
  }

  /** The steps for positions i, i - 1, ..., 1, in that order. */
  function ShuffleSteps(s: seq<Card>, draws: seq<nat>, i: nat): seq<Card>
    requires i < |s| && DrawsFit(|s|, draws)
    decreases i
  {
    if i == 0 then s else ShuffleSteps(Swap(s, i, draws[i]), draws, i - 1)
  }

  /** The Fisher-Yates order produced by the draws. */
  function Shuffle(deck: seq<Card>, draws: seq<nat>): seq<Card>
    requires DrawsFit(|deck|, draws)
  {
    if |deck| == 0 then deck else ShuffleSteps(deck, draws, |deck| - 1)
  }

  /** Exchanges a[i] and a[j]. */
  method SwapInPlace(a: array<Card>, i: nat, j: nat)
    requires i < a.Length && j < a.Length
    modifies a
    ensures a[..] == Swap(old(a[..]), i, j)
  {
    var t := a[i];
    a[i] := a[j];
    a[j] := t;
  }

  /** The `[...deck]` copy: a fresh array holding the deck. */
  method CopyToArray(deck: seq<Card>) returns (a: array<Card>)
    ensures fresh(a) && a[..] == deck
  {
    a := new Card[|deck|](k requires 0 <= k < |deck| => deck[k]);
  }

  /** shuffleDeck: copies the deck into a fresh array and swaps in place,
      position by position from the last down to 1. */
  method ShuffleDeck(deck: seq<Card>, draws: seq<nat>) returns (shuffled: seq<Card>)
    requires DrawsFit(|deck|, draws)
    ensures shuffled == Shuffle(deck, draws)
    ensures |shuffled| == |deck| && multiset(shuffled) == multiset(deck)
  {
    ShufflePermutes(deck, draws);
    if |deck| == 0 {
      return deck;
    }
    ghost var target := Shuffle(deck, draws);
    var a := CopyToArray(deck);
    var i: nat := |deck| - 1;
    while i > 0
      invariant a.Length == |deck| && i < |deck|
      invariant ShuffleSteps(a[..], draws, i) == target
    {
      var j := draws[i];
      ghost var before := a[..];
      assert ShuffleSteps(before, draws, i) == ShuffleSteps(Swap(before, i, j), draws, i - 1);
      SwapInPlace(a, i, j);
      i := i - 1;
    }
    shuffled := a[..];
  }

  lemma SwapKeepsIds(s: seq<Card>, i: nat, j: nat)
    requires i < |s| && j < |s|
    ensures multiset(Ids(Swap(s, i, j))) == multiset(Ids(s))
  {
    var u := Ids(s);
    assert Ids(Swap(s, i, j)) == Swap(u, i, j);
    SwapPermutes(u, i, j);
  }

  lemma {:induction false} ShuffleStepsPermute(s: seq<Card>, draws: seq<nat>, i: nat)
    requires i < |s| && DrawsFit(|s|, draws)
    ensures |ShuffleSteps(s, draws, i)| == |s|
    ensures multiset(ShuffleSteps(s, draws, i)) == multiset(s)
    decreases i
  {
    if i > 0 {
      SwapPermutes(s, i, draws[i]);
      ShuffleStepsPermute(Swap(s, i, draws[i]), draws, i - 1);
    }
  }

  lemma {:induction false} ShuffleStepsKeepIds(s: seq<Card>, draws: seq<nat>, i: nat)
    requires i < |s| && DrawsFit(|s|, draws)
    ensures multiset(Ids(ShuffleSteps(s, draws, i))) == multiset(Ids(s))
    decreases i
  {
    if i > 0 {
      var t := Swap(s, i, draws[i]);
      assert ShuffleSteps(s, draws, i) == ShuffleSteps(t, draws, i - 1);
      SwapKeepsIds(s, i, draws[i]);
      ShuffleStepsKeepIds(t, draws, i - 1);
    }
  }

  /** The shuffle is a permutation: same length, same cards, same ids. */
  lemma ShufflePermutes(deck: seq<Card>, draws: seq<nat>)
    requires DrawsFit(|deck|, draws)
    ensures |Shuffle(deck, draws)| == |deck|
    ensures multiset(Shuffle(deck, draws)) == multiset(deck)
    ensures multiset(Ids(Shuffle(deck, draws))) == multiset(Ids(deck))
  {
    if |deck| > 0 {
      var last := |deck| - 1;
      assert Shuffle(deck, draws) == ShuffleSteps(deck, draws, last);
      ShuffleStepsPermute(deck, draws, last);
      ShuffleStepsKeepIds(deck, draws, last);
    }
  }

  /** A random source that always yields 0. */
  function Zeros(n: nat): (r: seq<nat>)
    ensures DrawsFit(n, r)
  {
    seq(n, _ => 0)
  }

  /** With every draw 0, the steps i, ..., 1 rotate the first i + 1 cards
      one place to the left. */
  lemma {:induction false} ShuffleStepsZeros(s: seq<Card>, draws: seq<nat>, i: nat)
    requires i < |s| && DrawsFit(|s|, draws) && forall k :: 0 <= k < |draws| ==> draws[k] == 0
    ensures ShuffleSteps(s, draws, i) == s[1..i + 1] + [s[0]] + s[i + 1..]
    decreases i
  {
    if i > 0 {
      var t := Swap(s, i, 0);
      assert draws[i] == 0;
      assert ShuffleSteps(s, draws, i) == ShuffleSteps(t, draws, i - 1);
      ShuffleStepsZeros(t, draws, i - 1);
      RotateStep(s, i);
    }
  }

  /** One step of the rotation: swapping position i with position 0 and
      rotating the first i cards gives the rotation of the first i + 1. */
  lemma RotateStep(s: seq<Card>, i: nat)
    requires 0 < i < |s|
    ensures var t := Swap(s, i, 0);
      t[1..i] + [t[0]] + t[i..] == s[1..i + 1] + [s[0]] + s[i + 1..]
  {
    var t := Swap(s, i, 0);
    var l := t[1..i] + [t[0]] + t[i..];
    var r := s[1..i + 1] + [s[0]] + s[i + 1..];
    assert |l| == |r|;
    forall k | 0 <= k < |l|
      ensures l[k] == r[k]
    {
      if k < i - 1 {
        assert l[k] == t[k + 1] == s[k + 1] == r[k];
      } else if k == i - 1 {
        assert l[k] == t[0] == s[i] == r[k];
      } else if k == i {
        assert l[k] == t[i] == s[0] == r[k];
      } else {
        assert l[k] == t[k] == s[k] == r[k];
      }
    }
  }

  /** The constant-zero source swaps each position with position 0, which
      moves the bottom card to the end. */
  lemma ShuffleZerosRotates(deck: seq<Card>)
    requires |deck| > 0
    ensures Shuffle(deck, Zeros(|deck|)) == deck[1..] + [deck[0]]
  {
    var z := Zeros(|deck|);
    assert forall k :: 0 <= k < |z| ==> z[k] == 0;
    ShuffleStepsZeros(deck, z, |deck| - 1);
    assert deck[|deck|..] == [];
    assert deck[1..|deck|] == deck[1..];
  }

  /** Shuffling the standard deck with the constant-zero source changes the
      order of the cards. */
  lemma ShuffleZerosMovesStandardDeck()
    ensures Shuffle(StandardDeck(), Zeros(52)) != StandardDeck()
  {
    var d := StandardDeck();
    ShuffleZerosRotates(d);
    assert Shuffle(d, Zeros(52))[0] == d[1] != d[0];
  }
}

=== FILE: dnd.dfy ===
/** Turning a drag-and-drop gesture into a move request
    (src/components/board/dnd.ts). */
module Dnd {
  import opened Types
  import opened Engine

  /** The move a drop of `active` on `over` asks for, if any. */
  function CreateMoveFromDrop(active: Option<Location>, over: Option<Location>): (r: Option<Move>)
    ensures r.Some? <==>
      active.Some? && over.Some? &&
      (over.value.pileKind == Tableau || over.value.pileKind == Foundation) &&
      !(active.value.pileKind == over.value.pileKind && active.value.pileIndex == over.value.pileIndex)
    ensures r.Some? ==>
      r.value.from == active.value &&
      r.value.to.pileKind == over.value.pileKind && r.value.to.pileIndex == over.value.pileIndex &&
      r.value.to.cardIndex.None? && r.value.count.None?
  {
    if active.None? || over.None? then None
    else if over.value.pileKind != Tableau && over.value.pileKind != Foundation then None
    else if active.value.pileKind == over.value.pileKind && active.value.pileIndex == over.value.pileIndex then None
    else Some(Move(active.value, Location(over.value.pileKind, over.value.pileIndex, None), None))
  }

  /** A drop never names a count, so a drag-and-drop tableau move always
      carries the whole run: the card-dropping path of moveTableauStack is
      out of its reach. */
  lemma DropCarriesWholeRun(s: GameState, active: Option<Location>, over: Option<Location>)
    requires CreateMoveFromDrop(active, over).Some?
    ensures var m := CreateMoveFromDrop(active, over).value;
      m.from.pileIndex.Some? && m.from.cardIndex.Some? && m.to.pileIndex.Some? ==>
        MoveTableauStackAsWritten(s, m.from.pileIndex.value, m.from.cardIndex.value, m.to.pileIndex.value, m.count) ==
        MoveTableauStack(s, m.from.pileIndex.value, m.from.cardIndex.value, m.to.pileIndex.value, m.count)
  {
  }
}

=== FILE: drag_preview.dfy ===
/** What is shown under the pointer while a card or run is dragged
    (src/components/board/dragPreview.ts). */
module DragPreview {
  import opened Types
  import opened Engine
  import opened EngineProperties
  import opened Dnd

  datatype Preview = Preview(cards: seq<Card>, pileKind: PileKind)

  /** The cards a drag from `active` carries: a tableau pile from the
      grabbed card to the top, or the top waste card; nothing otherwise. */
  function GetDragPreview(s: GameState, active: Option<Location>): (r: Option<Preview>)
    ensures active.None? ==> r.None?
    ensures r.Some? ==> active.Some? && r.value.pileKind == active.value.pileKind && |r.value.cards| > 0
    ensures active.Some? && active.value.pileKind == Tableau ==>
      var loc := active.value;
      (r.Some? <==>
        loc.pileIndex.Some? && loc.cardIndex.Some? && loc.pileIndex.value < |s.tableau| &&
        loc.cardIndex.value < |s.tableau[loc.pileIndex.value].cards|) &&
      (r.Some? ==> r.value.cards == s.tableau[loc.pileIndex.value].cards[loc.cardIndex.value..])
    ensures active.Some? && active.value.pileKind == Waste ==>
      (r.Some? <==> |s.waste.cards| > 0) &&
      (r.Some? ==> r.value.cards == [Top(s.waste.cards)])
    ensures active.Some? && (active.value.pileKind == Foundation || active.value.pileKind == Stock) ==> r.None?
  {
    match active
    case None => None
    case Some(loc) =>
      if loc.pileKind == Tableau then
        if loc.pileIndex.None? || loc.cardIndex.None? then None
        else if loc.pileIndex.value >= |s.tableau| then None
        else
          var pile := s.tableau[loc.pileIndex.value];
          var cards := Slice(pile.cards, loc.cardIndex.value, |pile.cards|);
          if |cards| == 0 then None
          else Some(Preview(cards, loc.pileKind))
      else if loc.pileKind == Waste then
        if |s.waste.cards| == 0 then None
        else Some(Preview([Top(s.waste.cards)], loc.pileKind))
      else None
  }

  /** The preview is honest about a successful drop: when a drag shows a
      preview and the drop it ends in is carried out, the target pile grows
      by exactly the previewed cards, in the previewed order. */
  lemma DropCarriesPreviewedCards(s: GameState, active: Option<Location>, over: Option<Location>)
    requires GetDragPreview(s, active).Some?
    requires CreateMoveFromDrop(active, over).Some?
    requires ApplyMove(s, CreateMoveFromDrop(active, over).value) != s
    ensures var preview := GetDragPreview(s, active).value;
      var r := ApplyMove(s, CreateMoveFromDrop(active, over).value);
      var to := over.value.pileIndex.value;
      (over.value.pileKind == Tableau ==>
        to < |s.tableau| && to < |r.tableau| && r.tableau[to].cards == s.tableau[to].cards + preview.cards) &&
      (over.value.pileKind == Foundation ==>
        to < |s.foundations| && to < |r.foundations| && r.foundations[to].cards == s.foundations[to].cards + preview.cards)
  {
    var m := CreateMoveFromDrop(active, over).value;
    ApplyMoveOutcome(s, m);
    assert Permitted(s, m);
  }
}

=== FILE: engine.dfy ===
/** The state transitions of the game (src/game/engine/state.ts).

    The source copies the board, changes the copy and returns either the
    copy or the untouched input. Boards here are values, so the copy is
    implicit: every transition is a function from the old board to the new
    one. The internal helpers answer `None` where the source's helpers
    return false, and ApplyMove turns `None` into "return the input". */
module Engine {
  import opened Types
  import opened Rules

  /** Every foundation is full; with four foundations that puts all 52
      cards on them. */
  predicate IsWinState(s: GameState)
    ensures IsWinState(s) ==> |Flatten(s.foundations)| == 13 * |s.foundations|
  {
    FullPilesLength(s.foundations, 13);
    forall i :: 0 <= i < |s.foundations| ==> |s.foundations[i].cards| == 13
  }

  lemma {:induction false} FullPilesLength(ps: seq<Pile>, n: nat)
    ensures (forall i :: 0 <= i < |ps| ==> |ps[i].cards| == n) ==> |Flatten(ps)| == n * |ps|
    decreases |ps|
  {
    if |ps| > 0 && forall i :: 0 <= i < |ps| ==> |ps[i].cards| == n {
      var front := ps[..|ps| - 1];
      FullPilesLength(front, n);
      assert forall i :: 0 <= i < |front| ==> |front[i].cards| == n by {
        forall i | 0 <= i < |front| ensures |front[i].cards| == n {
          assert front[i] == ps[i];
        }
      }
      assert n * |ps| == n * |front| + n;
    }
  }

  function NormalizeGameStatus(s: GameState): (r: GameState)
    ensures r == s.(status := r.status)
    ensures r.status == Won <==> IsWinState(s)
  {
    s.(status := if IsWinState(s) then Won else InProgress)
  }

  /** The bookkeeping after every successful move: one more move, status
      recomputed. */
  function FinishMove(s: GameState): (r: GameState)
    ensures r.moveCount == s.moveCount + 1
    ensures r == s.(moveCount := r.moveCount, status := r.status)
    ensures r.status == Won <==> IsWinState(s)
  {
    NormalizeGameStatus(s.(moveCount := s.moveCount + 1))
  }

  /** Turns the top card face up if it is face down. */
  function FlipTop(cards: seq<Card>): (r: seq<Card>)
    ensures |r| == |cards| && Ids(r) == Ids(cards)
    ensures |r| > 0 ==> Top(r).faceUp
    ensures |cards| > 0 ==> r[..|r| - 1] == cards[..|cards| - 1]
    ensures |cards| > 0 ==> Top(r) == Top(cards).(faceUp := true)
  {
    if |cards| > 0 && !Top(cards).faceUp then
      cards[..|cards| - 1] + [Top(cards).(faceUp := true)]
    else
      cards
  }

  function WithTableauAutoFlip(s: GameState, sourceTableauIndex: nat): (r: GameState)
    ensures sourceTableauIndex < |s.tableau| ==>
      r == s.(tableau := s.tableau[sourceTableauIndex := s.tableau[sourceTableauIndex].(cards := FlipTop(s.tableau[sourceTableauIndex].cards))])
    ensures sourceTableauIndex >= |s.tableau| ==> r == s
  {
    if sourceTableauIndex >= |s.tableau| then s
    else
      var pile := s.tableau[sourceTableauIndex];
      s.(tableau := s.tableau[sourceTableauIndex := pile.(cards := FlipTop(pile.cards))])
  }

  /** The cards `slice(0, count)` keeps of a run. */
  function Carried(run: seq<Card>, count: Option<nat>): (r: seq<Card>)
    ensures r <= run
    ensures count.None? || count.value >= |run| ==> r == run
    ensures count.Some? && count.value < |run| ==> |r| == count.value
  {
    match count
    case None => run
    case Some(c) => Slice(run, 0, c)
  }

  /** The board after `moving` is laid on tableau pile `to` and tableau pile
      `from` is cut back to its first `cardIndex` cards. */
  function Relocate(s: GameState, from: nat, cardIndex: nat, to: nat, moving: seq<Card>): GameState
    requires from < |s.tableau| && to < |s.tableau| && from != to
    requires cardIndex <= |s.tableau[from].cards|
  {
    var source := s.tableau[from];
    var destination := s.tableau[to];
    var cut := s.(tableau := s.tableau[from := source.(cards := source.cards[..cardIndex])]
                                      [to := destination.(cards := destination.cards + moving)]);
    FinishMove(WithTableauAutoFlip(cut, from))
  }

  /** moveTableauStack exactly as the source has it: the source pile is cut
      at `cardIndex` but only the first `count` cards of the run are laid on
      the destination. */
  function MoveTableauStackAsWritten(s: GameState, from: nat, cardIndex: nat, to: nat, count: Option<nat>): (r: Option<GameState>)
    ensures r.Some? <==>
      IsValidTableauToTableauMove(s, from, cardIndex, to) && (count.None? || count.value > 0)
    ensures r.Some? ==>
      var source := s.tableau[from].cards;
      var t := r.value;
      |t.tableau| == |s.tableau| &&
      t.tableau[from] == s.tableau[from].(cards := FlipTop(source[..cardIndex])) &&
      t.tableau[to] == s.tableau[to].(cards := s.tableau[to].cards + Carried(source[cardIndex..], count)) &&
      (forall i :: 0 <= i < |s.tableau| && i != from && i != to ==> t.tableau[i] == s.tableau[i]) &&
      t.foundations == s.foundations && t.stock == s.stock && t.waste == s.waste &&
      t.moveCount == s.moveCount + 1 && (t.status == Won <==> IsWinState(t))
  {
    if !IsValidTableauToTableauMove(s, from, cardIndex, to) then None
    else
      var all := s.tableau[from].cards[cardIndex..];
      var moving := Carried(all, count);
      if |moving| == 0 || |moving| > |all| then None
      else Some(Relocate(s, from, cardIndex, to, moving))
  }

  /** `count` carries the whole run from `cardIndex` (or is not given). */
  predicate CarriesWholeRun(count: Option<nat>, runLength: nat) {
    count.None? || count.value >= runLength
  }

  /** moveTableauStack with the dropped-cards defect removed: a count that
      would leave part of the run behind refuses the move; every other
      request behaves as in the source. */
  function MoveTableauStack(s: GameState, from: nat, cardIndex: nat, to: nat, count: Option<nat>): (r: Option<GameState>)
    ensures r.Some? <==>
      IsValidTableauToTableauMove(s, from, cardIndex, to) &&
      CarriesWholeRun(count, |s.tableau[from].cards| - cardIndex)
    ensures r.Some? ==>
      var source := s.tableau[from].cards;
      var destination := s.tableau[to].cards;
      var t := r.value;
      |t.tableau| == |s.tableau| &&
      t.tableau[from] == s.tableau[from].(cards := FlipTop(source[..cardIndex])) &&
      t.tableau[to] == s.tableau[to].(cards := destination + source[cardIndex..]) &&
      (forall i :: 0 <= i < |s.tableau| && i != from && i != to ==> t.tableau[i] == s.tableau[i]) &&
      t.foundations == s.foundations && t.stock == s.stock && t.waste == s.waste &&
      t.moveCount == s.moveCount + 1 && (t.status == Won <==> IsWinState(t))
  {
    if !IsValidTableauToTableauMove(s, from, cardIndex, to) then None
    else
      var all := s.tableau[from].cards[cardIndex..];
      if !CarriesWholeRun(count, |all|) then None
      else Some(Relocate(s, from, cardIndex, to, all))
  }

  /** The board with `card` pushed onto foundation `index`. */
  function PushFoundation(s: GameState, index: nat, card: Card): GameState
    requires index < |s.foundations|
  {
    s.(foundations := s.foundations[index := s.foundations[index].(cards := s.foundations[index].cards + [card])])
  }

  /** Exactly one card moves: the top of the source tableau pile (whose new
      top is turned face up) or of the waste, onto the end of the foundation.
      The indices of a waste source, the target's card index and the count
      play no part. */
  function MoveToFoundation(s: GameState, m: Move): (r: Option<GameState>)
    ensures r.Some? <==> m.to.pileIndex.Some? && IsValidToFoundationMove(s, m.from, m.to.pileIndex.value)
    ensures r.Some? && m.from.pileKind == Tableau ==>
      var fi := m.to.pileIndex.value;
      var pi := m.from.pileIndex.value;
      var source := s.tableau[pi].cards;
      var t := r.value;
      |source| > 0 &&
      t.tableau == s.tableau[pi := s.tableau[pi].(cards := FlipTop(source[..|source| - 1]))] &&
      t.foundations == s.foundations[fi := s.foundations[fi].(cards := s.foundations[fi].cards + [Top(source)])] &&
      t.stock == s.stock && t.waste == s.waste &&
      t.moveCount == s.moveCount + 1 && (t.status == Won <==> IsWinState(t))
    ensures r.Some? && m.from.pileKind == Waste ==>
      var fi := m.to.pileIndex.value;
      var waste := s.waste.cards;
      var t := r.value;
      |waste| > 0 &&
      t.tableau == s.tableau &&
      t.foundations == s.foundations[fi := s.foundations[fi].(cards := s.foundations[fi].cards + [Top(waste)])] &&
      t.stock == s.stock && t.waste == s.waste.(cards := waste[..|waste| - 1]) &&
      t.moveCount == s.moveCount + 1 && (t.status == Won <==> IsWinState(t))
  {
    if m.to.pileIndex.None? then None
    else
      var fi := m.to.pileIndex.value;
      if !IsValidToFoundationMove(s, m.from, fi) then None
      else if m.from.pileKind == Tableau then
        if m.from.pileIndex.None? || m.from.cardIndex.None? then None
        else
          var pi := m.from.pileIndex.value;
          var source := s.tableau[pi].cards;
          if |source| == 0 then None
          else
            var popped := s.(tableau := s.tableau[pi := s.tableau[pi].(cards := source[..|source| - 1])]);
            Some(FinishMove(PushFoundation(WithTableauAutoFlip(popped, pi), fi, Top(source))))
      else if m.from.pileKind == Waste then
        var waste := s.waste.cards;
        if |waste| == 0 then None
        else
          var popped := s.(waste := s.waste.(cards := waste[..|waste| - 1]));
          Some(FinishMove(PushFoundation(popped, fi, Top(waste))))
      else None
  }

  /** The waste top moves onto the end of the tableau pile; nothing else
      moves. */
  function MoveWasteToTableau(s: GameState, m: Move): (r: Option<GameState>)
    ensures r.Some? <==> m.to.pileIndex.Some? && IsValidWasteMoves(s, Location(Tableau, m.to.pileIndex, None))
    ensures r.Some? ==>
      var ti := m.to.pileIndex.value;
      var waste := s.waste.cards;
      var t := r.value;
      |waste| > 0 && ti < |s.tableau| &&
      t.tableau == s.tableau[ti := s.tableau[ti].(cards := s.tableau[ti].cards + [Top(waste)])] &&
      t.foundations == s.foundations && t.stock == s.stock &&
      t.waste == s.waste.(cards := waste[..|waste| - 1]) &&
      t.moveCount == s.moveCount + 1 && (t.status == Won <==> IsWinState(t))
  {
    if m.to.pileIndex.None? then None
    else if !IsValidWasteMoves(s, Location(Tableau, m.to.pileIndex, None)) then None
    else
      var waste := s.waste.cards;
      if |waste| == 0 then None
      else
        var ti := m.to.pileIndex.value;
        var popped := s.(waste := s.waste.(cards := waste[..|waste| - 1]));
        Some(FinishMove(popped.(tableau := s.tableau[ti := s.tableau[ti].(cards := s.tableau[ti].cards + [Top(waste)])])))
  }

  /** The engine's answer to a move request: the new board, or None when the
      request is refused. */
  function TryMove(s: GameState, m: Move): (r: Option<GameState>)
    ensures r.Some? ==> r.value.moveCount == s.moveCount + 1 && (r.value.status == Won <==> IsWinState(r.value))
    ensures m.from.pileKind !in {Tableau, Waste} || m.to.pileKind !in {Tableau, Foundation} ==> r.None?
  {
    if m.from.pileKind == Tableau && m.to.pileKind == Tableau then
      if m.from.pileIndex.Some? && m.from.cardIndex.Some? && m.to.pileIndex.Some? then
        MoveTableauStack(s, m.from.pileIndex.value, m.from.cardIndex.value, m.to.pileIndex.value, m.count)
      else None
    else if (m.from.pileKind == Tableau || m.from.pileKind == Waste) && m.to.pileKind == Foundation then
      MoveToFoundation(s, m)
    else if m.from.pileKind == Waste && m.to.pileKind == Tableau then
      MoveWasteToTableau(s, m)
    else None
  }

  /** applyMove: the new board, or the input itself when the move is refused. */
  function ApplyMove(s: GameState, m: Move): (r: GameState)
    ensures r == s || (r.moveCount == s.moveCount + 1 && (r.status == Won <==> IsWinState(r)))
  {
    var outcome := TryMove(s, m);
    if outcome.Some? then outcome.value else s
  }

  function DrawFromStock(s: GameState): (r: GameState)
    ensures |s.stock.cards| == 0 ==> r == s
    ensures |s.stock.cards| > 0 ==>
      |r.stock.cards| == |s.stock.cards| - 1 && |r.waste.cards| == |s.waste.cards| + 1 &&
      Top(r.waste.cards).faceUp && r.moveCount == s.moveCount
  {
    if |s.stock.cards| == 0 then s
    else
      var stock := s.stock.cards;
      var drawn := Top(stock);
      NormalizeGameStatus(s.(stock := s.stock.(cards := stock[..|stock| - 1]),
                             waste := s.waste.(cards := s.waste.cards + [drawn.(faceUp := true)])))
  }

  function RecycleWasteToStock(s: GameState): (r: GameState)
    ensures |s.stock.cards| > 0 || |s.waste.cards| == 0 ==> r == s
    ensures |s.stock.cards| == 0 && |s.waste.cards| > 0 ==>
      |r.stock.cards| == |s.waste.cards| && r.waste.cards == [] &&
      AllFaceDown(r.stock.cards) && r.moveCount == s.moveCount
  {
    if |s.stock.cards| > 0 || |s.waste.cards| == 0 then s
    else
      NormalizeGameStatus(s.(stock := s.stock.(cards := FaceDown(Reverse(s.waste.cards))),
                             waste := s.waste.(cards := [])))
  }
}

=== FILE: engine_properties.dfy ===
/** What the engine promises (src/game/engine/state.ts): a refused move
    returns the board unchanged, an accepted one moves exactly the cards
    the rules allow and counts one move, no transition loses or duplicates
    a card, and the shape of a dealt board survives every transition. */
module EngineProperties {
  import opened Types
  import opened Rules
  import opened Engine

  // ---------------------------------------------------------------------
  // Accept or refuse

  /** The requests the engine carries out: a legal tableau-to-tableau move
      whose count (if any) covers the whole run, a legal move of an exposed
      tableau or waste card to a foundation, and a legal waste-to-tableau
      move. Nothing else: no foundation or stock source, no stock target. */
  predicate Permitted(s: GameState, m: Move) {
    (m.from.pileKind == Tableau && m.to.pileKind == Tableau &&
     m.from.pileIndex.Some? && m.from.cardIndex.Some? && m.to.pileIndex.Some? &&
     IsValidTableauToTableauMove(s, m.from.pileIndex.value, m.from.cardIndex.value, m.to.pileIndex.value) &&
     CarriesWholeRun(m.count, |s.tableau[m.from.pileIndex.value].cards| - m.from.cardIndex.value))
    ||
    ((m.from.pileKind == Tableau || m.from.pileKind == Waste) && m.to.pileKind == Foundation &&
     m.to.pileIndex.Some? && IsValidToFoundationMove(s, m.from, m.to.pileIndex.value))
    ||
    (m.from.pileKind == Waste && m.to.pileKind == Tableau &&
     m.to.pileIndex.Some? && IsValidWasteMoves(s, Location(Tableau, m.to.pileIndex, None)))
  }

  /** ApplyMove changes the board exactly when the rules permit the move;
      then it counts one move and recomputes the status, otherwise it
      returns its input. */
  lemma ApplyMoveOutcome(s: GameState, m: Move)
    ensures TryMove(s, m).Some? <==> Permitted(s, m)
    ensures ApplyMove(s, m) != s <==> Permitted(s, m)
    ensures Permitted(s, m) ==>
      ApplyMove(s, m).moveCount == s.moveCount + 1 &&
      (ApplyMove(s, m).status == Won <==> IsWinState(ApplyMove(s, m)))
    ensures !Permitted(s, m) ==> ApplyMove(s, m) == s
  {
    if TryMove(s, m).Some? {
      assert ApplyMove(s, m).moveCount != s.moveCount;
    }
  }

  // ---------------------------------------------------------------------
  // Exact effects

  /** A tableau-to-tableau move whose count, if given, covers the run: the
      source keeps the cards below the card index (its new top turned face
      up), the destination gets the run on top in order, and nothing else
      changes. The target's card index plays no part. */
  lemma ApplyTableauToTableau(s: GameState, m: Move)
    requires m.from.pileKind == Tableau && m.to.pileKind == Tableau
    requires m.from.pileIndex.Some? && m.from.cardIndex.Some? && m.to.pileIndex.Some?
    requires IsValidTableauToTableauMove(s, m.from.pileIndex.value, m.from.cardIndex.value, m.to.pileIndex.value)
    requires CarriesWholeRun(m.count, |s.tableau[m.from.pileIndex.value].cards| - m.from.cardIndex.value)
    ensures var r := ApplyMove(s, m);
      var from := m.from.pileIndex.value;
      var to := m.to.pileIndex.value;
      var cardIndex := m.from.cardIndex.value;
      var source := s.tableau[from].cards;
      |r.tableau| == |s.tableau| &&
      r.tableau[from].cards == FlipTop(source[..cardIndex]) &&
      r.tableau[to].cards == s.tableau[to].cards + source[cardIndex..] &&
      (forall i :: 0 <= i < |s.tableau| && i != from && i != to ==> r.tableau[i] == s.tableau[i]) &&
      r.foundations == s.foundations && r.stock == s.stock && r.waste == s.waste &&
      r.moveCount == s.moveCount + 1 && (r.status == Won <==> IsWinState(r))
  {
  }

  /** The exposed card of a tableau pile goes to a foundation: it leaves the
      pile (whose new top is turned face up) and lands on the foundation.
      The target's card index and the count play no part. */
  lemma ApplyTableauToFoundation(s: GameState, m: Move)
    requires m.from.pileKind == Tableau && m.to.pileKind == Foundation && m.to.pileIndex.Some?
    requires IsValidToFoundationMove(s, m.from, m.to.pileIndex.value)
    ensures var r := ApplyMove(s, m);
      var from := m.from.pileIndex.value;
      var fi := m.to.pileIndex.value;
      var source := s.tableau[from].cards;
      |source| > 0 &&
      |r.tableau| == |s.tableau| && |r.foundations| == |s.foundations| &&
      r.tableau[from] == s.tableau[from].(cards := FlipTop(source[..|source| - 1])) &&
      r.foundations[fi] == s.foundations[fi].(cards := s.foundations[fi].cards + [Top(source)]) &&
      (forall i :: 0 <= i < |s.tableau| && i != from ==> r.tableau[i] == s.tableau[i]) &&
      (forall i :: 0 <= i < |s.foundations| && i != fi ==> r.foundations[i] == s.foundations[i]) &&
      r.stock == s.stock && r.waste == s.waste &&
      r.moveCount == s.moveCount + 1
  {
  }

  /** The waste top goes to a foundation; nothing else moves. Whatever pile
      and card index the request names for the waste, and whatever it names
      as the target's card index or count, the effect is the same. */
  lemma ApplyWasteToFoundation(s: GameState, m: Move)
    requires m.from.pileKind == Waste && m.to.pileKind == Foundation && m.to.pileIndex.Some?
    requires IsValidToFoundationMove(s, m.from, m.to.pileIndex.value)
    ensures var r := ApplyMove(s, m);
      var fi := m.to.pileIndex.value;
      var waste := s.waste.cards;
      |waste| > 0 &&
      r.waste == s.waste.(cards := waste[..|waste| - 1]) &&
      r.foundations == s.foundations[fi := s.foundations[fi].(cards := s.foundations[fi].cards + [Top(waste)])] &&
      r.tableau == s.tableau && r.stock == s.stock &&
      r.moveCount == s.moveCount + 1
  {
  }

  /** The waste top goes onto a tableau pile; nothing else moves. As for
      foundations, the indices on the waste side, the target's card index
      and the count play no part. */
  lemma ApplyWasteToTableau(s: GameState, m: Move)
    requires m.from.pileKind == Waste && m.to.pileKind == Tableau && m.to.pileIndex.Some?
    requires IsValidWasteMoves(s, Location(Tableau, m.to.pileIndex, None))
    ensures var r := ApplyMove(s, m);
      var to := m.to.pileIndex.value;
      var waste := s.waste.cards;
      |waste| > 0 && to < |s.tableau| &&
      r.waste == s.waste.(cards := waste[..|waste| - 1]) &&
      r.tableau == s.tableau[to := s.tableau[to].(cards := s.tableau[to].cards + [Top(waste)])] &&
      r.foundations == s.foundations && r.stock == s.stock &&
      r.moveCount == s.moveCount + 1
  {
  }

  /** Drawing does nothing on an empty stock; otherwise the last stock card
      moves face up onto the waste, and the move count stays. */
  lemma DrawEffect(s: GameState)
    ensures |s.stock.cards| == 0 ==> DrawFromStock(s) == s
    ensures |s.stock.cards| > 0 ==>
      var r := DrawFromStock(s);
      var stock := s.stock.cards;
      r.stock == s.stock.(cards := stock[..|stock| - 1]) &&
      r.waste == s.waste.(cards := s.waste.cards + [Top(stock).(faceUp := true)]) &&
      r.tableau == s.tableau && r.foundations == s.foundations &&
      r.moveCount == s.moveCount && (r.status == Won <==> IsWinState(r))
  {
  }

  /** Recycling does nothing unless the stock is empty and the waste is not;
      then the waste, reversed and face down, becomes the stock. */
  lemma RecycleEffect(s: GameState)
    ensures |s.stock.cards| > 0 || |s.waste.cards| == 0 ==> RecycleWasteToStock(s) == s
    ensures |s.stock.cards| == 0 && |s.waste.cards| > 0 ==>
      var r := RecycleWasteToStock(s);
      var waste := s.waste.cards;
      |r.stock.cards| == |waste| &&
      (forall i :: 0 <= i < |waste| ==> r.stock.cards[i] == waste[|waste| - 1 - i].(faceUp := false)) &&
      r.waste.cards == [] &&
      r.tableau == s.tableau && r.foundations == s.foundations &&
      r.moveCount == s.moveCount && (r.status == Won <==> IsWinState(r))
  {
  }

  /** Drawing `n` times in a row. */
  function DrawTimes(s: GameState, n: nat): GameState
    decreases n
  {
    if n == 0 then s else DrawTimes(DrawFromStock(s), n - 1)
  }

  lemma {:induction false} DrawAll(t: GameState, u: seq<Card>)
    requires t.stock.cards == FaceDown(Reverse(u))
    requires AllFaceUp(u)
    ensures DrawTimes(t, |u|).waste.cards == t.waste.cards + u
    ensures DrawTimes(t, |u|).stock.cards == []
    ensures DrawTimes(t, |u|).moveCount == t.moveCount
    decreases |u|
  {
    if |u| == 0 {
      assert t.stock.cards == [];
    } else {
      var t' := DrawFromStock(t);
      var stock := t.stock.cards;
      assert Top(stock) == u[0].(faceUp := false);
      assert u[0].(faceUp := false).(faceUp := true) == u[0];
      assert stock[..|stock| - 1] == FaceDown(Reverse(u[1..]));
      DrawAll(t', u[1..]);
      assert t.waste.cards + [u[0]] + u[1..] == t.waste.cards + u;
    }
  }

  /** Recycling and then drawing the whole stock again gives back the waste
      card for card, in its old order (the waste is face up on a
      well-formed board), and an empty stock. */
  lemma RecycleThenDrawAll(s: GameState)
    requires |s.stock.cards| == 0 && |s.waste.cards| > 0
    requires AllFaceUp(s.waste.cards)
    ensures DrawTimes(RecycleWasteToStock(s), |s.waste.cards|).waste.cards == s.waste.cards
    ensures DrawTimes(RecycleWasteToStock(s), |s.waste.cards|).stock.cards == []
    ensures DrawTimes(RecycleWasteToStock(s), |s.waste.cards|).moveCount == s.moveCount
  {
    DrawAll(RecycleWasteToStock(s), s.waste.cards);
  }

  // ---------------------------------------------------------------------
  // Card conservation

  /** Laying `moving` on tableau pile `to` while cutting pile `from` at
      `cardIndex`: the bag loses the cut-off cards and gains `moving`. */
  lemma RelocateBag(s: GameState, from: nat, cardIndex: nat, to: nat, moving: seq<Card>)
    requires from < |s.tableau| && to < |s.tableau| && from != to
    requires cardIndex <= |s.tableau[from].cards|
    ensures Bag(Relocate(s, from, cardIndex, to, moving)) + CardsBag(s.tableau[from].cards[cardIndex..])
            == Bag(s) + CardsBag(moving)
  {
    var source := s.tableau[from];
    var destination := s.tableau[to];
    var below := source.cards[..cardIndex];
    var all := source.cards[cardIndex..];
    var t1 := s.tableau[from := source.(cards := below)];
    var t2 := t1[to := destination.(cards := destination.cards + moving)];
    var t3 := t2[from := source.(cards := FlipTop(below))];
    PilesBagUpdate(s.tableau, from, source.(cards := below));
    assert source.cards == below + all;
    CardsBagAppend(below, all);
    BagCancel(PilesBag(t1) + CardsBag(all), CardsBag(below), PilesBag(s.tableau));
    PilesBagUpdate(t1, to, destination.(cards := destination.cards + moving));
    CardsBagAppend(destination.cards, moving);
    BagCancel(PilesBag(t2), CardsBag(destination.cards), PilesBag(t1) + CardsBag(moving));
    PilesBagSameIds(t2, from, source.(cards := FlipTop(below)));
    var r := Relocate(s, from, cardIndex, to, moving);
    assert r.tableau == t3;
    assert r.foundations == s.foundations && r.stock == s.stock && r.waste == s.waste;
  }

  /** Laying a whole run from one tableau pile onto another keeps every card. */
  lemma RelocateConserves(s: GameState, from: nat, cardIndex: nat, to: nat)
    requires from < |s.tableau| && to < |s.tableau| && from != to
    requires cardIndex <= |s.tableau[from].cards|
    ensures Bag(Relocate(s, from, cardIndex, to, s.tableau[from].cards[cardIndex..])) == Bag(s)
  {
    var all := s.tableau[from].cards[cardIndex..];
    RelocateBag(s, from, cardIndex, to, all);
    BagCancel(Bag(Relocate(s, from, cardIndex, to, all)), CardsBag(all), Bag(s));
  }

  lemma MoveToFoundationConserves(s: GameState, m: Move)
    requires MoveToFoundation(s, m).Some?
    ensures Bag(MoveToFoundation(s, m).value) == Bag(s)
  {
    var r := MoveToFoundation(s, m).value;
    var fi := m.to.pileIndex.value;
    var card: Card;
    if m.from.pileKind == Tableau {
      var pi := m.from.pileIndex.value;
      var source := s.tableau[pi];
      var below := source.cards[..|source.cards| - 1];
      card := Top(source.cards);
      var t1 := s.tableau[pi := source.(cards := below)];
      PilesBagPop(s.tableau, pi);
      PilesBagSameIds(t1, pi, source.(cards := FlipTop(below)));
      assert r.tableau == t1[pi := source.(cards := FlipTop(below))];
      assert PilesBag(r.tableau) + multiset{card.id} == PilesBag(s.tableau);
      assert r.stock == s.stock && r.waste == s.waste;
    } else {
      card := Top(s.waste.cards);
      CardsBagPop(s.waste.cards);
      assert r.tableau == s.tableau && r.stock == s.stock;
      assert CardsBag(r.waste.cards) + multiset{card.id} == CardsBag(s.waste.cards);
    }
    PilesBagPush(s.foundations, fi, card);
    assert r.foundations == s.foundations[fi := s.foundations[fi].(cards := s.foundations[fi].cards + [card])];
  }

  lemma MoveWasteToTableauConserves(s: GameState, m: Move)
    requires MoveWasteToTableau(s, m).Some?
    ensures Bag(MoveWasteToTableau(s, m).value) == Bag(s)
  {
    var r := MoveWasteToTableau(s, m).value;
    var ti := m.to.pileIndex.value;
    var card := Top(s.waste.cards);
    PilesBagPush(s.tableau, ti, card);
    CardsBagPop(s.waste.cards);
    assert r.tableau == s.tableau[ti := s.tableau[ti].(cards := s.tableau[ti].cards + [card])];
    assert r.foundations == s.foundations && r.stock == s.stock;
  }

  /** No move loses or duplicates a card. */
  lemma ApplyMoveConserves(s: GameState, m: Move)
    ensures Bag(ApplyMove(s, m)) == Bag(s)
  {
    if TryMove(s, m).Some? {
      if m.from.pileKind == Tableau && m.to.pileKind == Tableau {
        RelocateConserves(s, m.from.pileIndex.value, m.from.cardIndex.value, m.to.pileIndex.value);
      } else if (m.from.pileKind == Tableau || m.from.pileKind == Waste) && m.to.pileKind == Foundation {
        MoveToFoundationConserves(s, m);
      } else {
        MoveWasteToTableauConserves(s, m);
      }
    }
  }

  lemma DrawConserves(s: GameState)
    ensures Bag(DrawFromStock(s)) == Bag(s)
  {
    if |s.stock.cards| > 0 {
      var card := Top(s.stock.cards);
      CardsBagPop(s.stock.cards);
      CardsBagPush(s.waste.cards, card.(faceUp := true));
    }
  }

  lemma RecycleConserves(s: GameState)
    ensures Bag(RecycleWasteToStock(s)) == Bag(s)
  {
    if |s.stock.cards| == 0 && |s.waste.cards| > 0 {
      var w := s.waste.cards;
      IdsFaceDown(Reverse(w));
      assert Ids(Reverse(w)) == Reverse(Ids(w));
      ReverseMultiset(Ids(w));
    }
  }

  lemma {:induction false} ReverseMultiset<T>(s: seq<T>)
    ensures multiset(Reverse(s)) == multiset(s)
    decreases |s|
  {
    if |s| > 0 {
      ReverseMultiset(s[1..]);
      assert Reverse(s) == Reverse(s[1..]) + [s[0]];
      assert s == [s[0]] + s[1..];
    }
  }

  // ---------------------------------------------------------------------
  // The finding: a count smaller than the run drops cards

  /** Whenever the count is absent or covers the run, the corrected move and
      the source's move produce the same board. */
  lemma AsWrittenAgrees(s: GameState, from: nat, cardIndex: nat, to: nat, count: Option<nat>)
    requires IsValidTableauToTableauMove(s, from, cardIndex, to)
    requires CarriesWholeRun(count, |s.tableau[from].cards| - cardIndex)
    ensures MoveTableauStackAsWritten(s, from, cardIndex, to, count) == MoveTableauStack(s, from, cardIndex, to, count)
  {
  }

  /** With 0 < count < run length, the source's move succeeds yet the cards
      of the run above the first `count` vanish from the board. */
  lemma AsWrittenDropsCards(s: GameState, from: nat, cardIndex: nat, to: nat, c: nat)
    requires IsValidTableauToTableauMove(s, from, cardIndex, to)
    requires 0 < c < |s.tableau[from].cards| - cardIndex
    ensures MoveTableauStackAsWritten(s, from, cardIndex, to, Some(c)).Some?
    ensures var r := MoveTableauStackAsWritten(s, from, cardIndex, to, Some(c)).value;
      Bag(r) + CardsBag(s.tableau[from].cards[cardIndex + c..]) == Bag(s) &&
      |Bag(r)| < |Bag(s)|
  {
    var all := s.tableau[from].cards[cardIndex..];
    var moving := all[..c];
    var rest := s.tableau[from].cards[cardIndex + c..];
    assert Carried(all, Some(c)) == moving;
    var r := Relocate(s, from, cardIndex, to, moving);
    assert MoveTableauStackAsWritten(s, from, cardIndex, to, Some(c)) == Some(r);
    RelocateBag(s, from, cardIndex, to, moving);
    assert all == moving + rest;
    CardsBagAppend(moving, rest);
    BagCancel(Bag(r) + CardsBag(rest), CardsBag(moving), Bag(s));
    assert |CardsBag(rest)| == |rest| > 0;
  }

  /** A concrete board on which the source loses a card: a King with a red
      Queen on it, moved to an empty pile with count 1. The King arrives,
      the Queen is on no pile at all. The corrected move refuses. */
  lemma AsWrittenDropsQueen()
    ensures var king := Card("spades-13", Spades, 13, true);
      var queen := Card("hearts-12", Hearts, 12, true);
      var s := GameState([Pile(Tableau, [king, queen]), Pile(Tableau, [])], [], Pile(Stock, []), Pile(Waste, []), 0, InProgress);
      var r := MoveTableauStackAsWritten(s, 0, 0, 1, Some(1));
      r.Some? &&
      r.value.tableau == [Pile(Tableau, []), Pile(Tableau, [king])] &&
      r.value.foundations == [] && r.value.stock.cards == [] && r.value.waste.cards == [] &&
      MoveTableauStack(s, 0, 0, 1, Some(1)).None?
  {
    var king := Card("spades-13", Spades, 13, true);
    var queen := Card("hearts-12", Hearts, 12, true);
    var s := GameState([Pile(Tableau, [king, queen]), Pile(Tableau, [])], [], Pile(Stock, []), Pile(Waste, []), 0, InProgress);
    assert s.tableau[0].cards[0..] == [king, queen];
    assert Follows([king, queen][0], [king, queen][1]);
    assert IsValidTableauStack([king, queen]);
    assert IsValidTableauToTableauMove(s, 0, 0, 1);
    assert Carried([king, queen], Some(1)) == [king];
    assert [king, queen][..0] == [] && [] + [king] == [king];
    var cut := s.(tableau := s.tableau[0 := Pile(Tableau, [])][1 := Pile(Tableau, [king])]);
    assert cut.tableau == [Pile(Tableau, []), Pile(Tableau, [king])];
    assert WithTableauAutoFlip(cut, 0).tableau == cut.tableau;
    assert MoveTableauStackAsWritten(s, 0, 0, 1, Some(1)) == Some(Relocate(s, 0, 0, 1, [king]));
    assert Relocate(s, 0, 0, 1, [king]).tableau == cut.tableau;
    assert Relocate(s, 0, 0, 1, [king]).foundations == [];
    assert MoveTableauStack(s, 0, 0, 1, Some(1)).None?;
  }

  // ---------------------------------------------------------------------
  // The shape of a board in play

  /** What dealing establishes and every transition keeps: seven tableau
      piles whose top cards are face up, four foundations each an ordered
      face-up suit, a face-down stock, a face-up waste, and a status that
      says whether the game is won. */
  predicate WellFormed(s: GameState) {
    |s.tableau| == 7 && |s.foundations| == 4 &&
    (forall i :: 0 <= i < |s.tableau| ==>
      s.tableau[i].kind == Tableau && (|s.tableau[i].cards| > 0 ==> Top(s.tableau[i].cards).faceUp)) &&
    (forall i :: 0 <= i < |s.foundations| ==>
      s.foundations[i].kind == Foundation && FoundationOrdered(s.foundations[i].cards) && AllFaceUp(s.foundations[i].cards)) &&
    s.stock.kind == Stock && AllFaceDown(s.stock.cards) &&
    s.waste.kind == Waste && AllFaceUp(s.waste.cards) &&
    (s.status == Won <==> IsWinState(s))
  }

  /** On a well-formed board the game is won exactly when each foundation
      holds a whole suit from Ace to King. */
  lemma WonMeansFourCompleteSuits(s: GameState)
    requires WellFormed(s)
    ensures s.status == Won <==>
      forall f :: 0 <= f < 4 ==>
        (|s.foundations[f].cards| == 13 &&
         forall i :: 0 <= i < 13 ==>
           (s.foundations[f].cards[i].rank == i + 1 && s.foundations[f].cards[i].suit == s.foundations[f].cards[0].suit))
  {
    forall f | 0 <= f < 4 {
      FoundationAtMostThirteen(s.foundations[f].cards);
    }
  }

  lemma TableauMoveKeepsWellFormed(s: GameState, from: nat, cardIndex: nat, to: nat, count: Option<nat>)
    requires WellFormed(s)
    requires MoveTableauStack(s, from, cardIndex, to, count).Some?
    ensures WellFormed(MoveTableauStack(s, from, cardIndex, to, count).value)
  {
    var r := MoveTableauStack(s, from, cardIndex, to, count).value;
    var moving := s.tableau[from].cards[cardIndex..];
    assert IsValidTableauStack(moving);
    assert Top(r.tableau[to].cards) == Top(moving);
    assert forall i :: 0 <= i < |r.tableau| ==> r.tableau[i].kind == Tableau;
  }

  /** The source's own tableau move also keeps the board well formed: it
      loses cards from the bag when a count splits the run
      (AsWrittenDropsCards), but every pile keeps its shape. */
  lemma AsWrittenKeepsWellFormed(s: GameState, from: nat, cardIndex: nat, to: nat, count: Option<nat>)
    requires WellFormed(s)
    requires MoveTableauStackAsWritten(s, from, cardIndex, to, count).Some?
    ensures WellFormed(MoveTableauStackAsWritten(s, from, cardIndex, to, count).value)
  {
    var r := MoveTableauStackAsWritten(s, from, cardIndex, to, count).value;
    var all := s.tableau[from].cards[cardIndex..];
    var moving := Carried(all, count);
    assert IsValidTableauStack(all);
    assert |moving| > 0;
    assert Top(r.tableau[to].cards) == Top(moving);
    assert forall i :: 0 <= i < |r.tableau| ==> r.tableau[i].kind == Tableau;
  }

  /** Laying a card that the foundation accepts onto a well-formed board's
      foundation keeps the foundations ordered and face up. */
  lemma FoundationPushKeepsShape(t: GameState, fi: nat, card: Card)
    requires fi < |t.foundations|
    requires forall i :: 0 <= i < |t.foundations| ==>
      t.foundations[i].kind == Foundation && FoundationOrdered(t.foundations[i].cards) && AllFaceUp(t.foundations[i].cards)
    requires card.faceUp && CanPlaceOnFoundation(card, t.foundations[fi].cards)
    ensures var u := PushFoundation(t, fi, card);
      forall i :: 0 <= i < |u.foundations| ==>
        u.foundations[i].kind == Foundation && FoundationOrdered(u.foundations[i].cards) && AllFaceUp(u.foundations[i].cards)
  {
    PlacementKeepsFoundationOrdered(card, t.foundations[fi].cards);
  }

  /** The parts of WellFormed that a move to a foundation can touch are
      the source pile and the foundations; this is the rest. */
  lemma FinishKeepsWellFormed(t: GameState)
    requires |t.tableau| == 7 && |t.foundations| == 4
    requires forall i :: 0 <= i < |t.tableau| ==>
      t.tableau[i].kind == Tableau && (|t.tableau[i].cards| > 0 ==> Top(t.tableau[i].cards).faceUp)
    requires forall i :: 0 <= i < |t.foundations| ==>
      t.foundations[i].kind == Foundation && FoundationOrdered(t.foundations[i].cards) && AllFaceUp(t.foundations[i].cards)
    requires t.stock.kind == Stock && AllFaceDown(t.stock.cards)
    requires t.waste.kind == Waste && AllFaceUp(t.waste.cards)
    ensures WellFormed(FinishMove(t))
  {
  }

  lemma TableauToFoundationKeepsWellFormed(s: GameState, m: Move)
    requires WellFormed(s) && m.from.pileKind == Tableau
    requires MoveToFoundation(s, m).Some?
    ensures WellFormed(MoveToFoundation(s, m).value)
  {
    var fi := m.to.pileIndex.value;
    var pi := m.from.pileIndex.value;
    var source := s.tableau[pi].cards;
    var card := Top(source);
    var popped := s.(tableau := s.tableau[pi := s.tableau[pi].(cards := source[..|source| - 1])]);
    var flipped := WithTableauAutoFlip(popped, pi);
    assert MoveToFoundation(s, m).value == FinishMove(PushFoundation(flipped, fi, card));
    assert flipped.tableau == s.tableau[pi := s.tableau[pi].(cards := FlipTop(source[..|source| - 1]))];
    assert flipped.foundations == s.foundations;
    assert card.faceUp && CanPlaceOnFoundation(card, s.foundations[fi].cards);
    FoundationPushKeepsShape(flipped, fi, card);
    FinishKeepsWellFormed(PushFoundation(flipped, fi, card));
  }

  lemma WasteToFoundationKeepsWellFormed(s: GameState, m: Move)
    requires WellFormed(s) && m.from.pileKind == Waste
    requires MoveToFoundation(s, m).Some?
    ensures WellFormed(MoveToFoundation(s, m).value)
  {
    var fi := m.to.pileIndex.value;
    var waste := s.waste.cards;
    var popped := s.(waste := s.waste.(cards := waste[..|waste| - 1]));
    assert MoveToFoundation(s, m).value == FinishMove(PushFoundation(popped, fi, Top(waste)));
    FoundationPushKeepsShape(popped, fi, Top(waste));
    FinishKeepsWellFormed(PushFoundation(popped, fi, Top(waste)));
  }

  lemma WasteToTableauKeepsWellFormed(s: GameState, m: Move)
    requires WellFormed(s)
    requires MoveWasteToTableau(s, m).Some?
    ensures WellFormed(MoveWasteToTableau(s, m).value)
  {
    var r := MoveWasteToTableau(s, m).value;
    var to := m.to.pileIndex.value;
    assert r.tableau == s.tableau[to := s.tableau[to].(cards := s.tableau[to].cards + [Top(s.waste.cards)])];
    assert r.waste.cards == s.waste.cards[..|s.waste.cards| - 1];
  }

  lemma ApplyMoveKeepsWellFormed(s: GameState, m: Move)
    requires WellFormed(s)
    ensures WellFormed(ApplyMove(s, m))
  {
    if TryMove(s, m).Some? {
      if m.from.pileKind == Tableau && m.to.pileKind == Tableau {
        TableauMoveKeepsWellFormed(s, m.from.pileIndex.value, m.from.cardIndex.value, m.to.pileIndex.value, m.count);
      } else if m.from.pileKind == Tableau && m.to.pileKind == Foundation {
        TableauToFoundationKeepsWellFormed(s, m);
      } else if m.from.pileKind == Waste && m.to.pileKind == Foundation {
        WasteToFoundationKeepsWellFormed(s, m);
      } else {
        WasteToTableauKeepsWellFormed(s, m);
      }
    }
  }

  lemma DrawKeepsWellFormed(s: GameState)
    requires WellFormed(s)
    ensures WellFormed(DrawFromStock(s))
  {
  }

  lemma RecycleKeepsWellFormed(s: GameState)
    requires WellFormed(s)
    ensures WellFormed(RecycleWasteToStock(s))
  {
  }

  // ---------------------------------------------------------------------
  // Any sequence of engine calls

  /** One call a player can make on the engine. */
  datatype Action = Play(m: Move) | Draw | Recycle

  function Step(s: GameState, a: Action): GameState {
    match a
    case Play(m) => ApplyMove(s, m)
    case Draw => DrawFromStock(s)
    case Recycle => RecycleWasteToStock(s)
  }

  function Run(s: GameState, actions: seq<Action>): GameState
    decreases |actions|
  {
    if |actions| == 0 then s else Run(Step(s, actions[0]), actions[1..])
  }

  /** Whatever the player does, a well-formed board stays well formed, holds
      exactly the same cards, and its move count never goes down. */
  lemma {:induction false} RunKeepsBoard(s: GameState, actions: seq<Action>)
    requires WellFormed(s)
    ensures WellFormed(Run(s, actions))
    ensures Bag(Run(s, actions)) == Bag(s)
    ensures Run(s, actions).moveCount >= s.moveCount
    decreases |actions|
  {
    if |actions| > 0 {
      var t := Step(s, actions[0]);
      match actions[0] {
        case Play(m) =>
          ApplyMoveKeepsWellFormed(s, m);
          ApplyMoveConserves(s, m);
        case Draw =>
          DrawKeepsWellFormed(s);
          DrawConserves(s);
        case Recycle =>
          RecycleKeepsWellFormed(s);
          RecycleConserves(s);
      }
      RunKeepsBoard(t, actions[1..]);
    }
  }
}

=== FILE: rules.dfy ===
/** Legality of moves (src/game/rules/moves.ts): pure predicates over a
    board. None of them changes anything; an out-of-range or missing index
    simply makes a move illegal. */
module Rules {
  import opened Types

  /** Hearts and diamonds are red; clubs and spades are the black suits. */
  predicate IsRedSuit(suit: Suit)
    ensures IsRedSuit(suit) <==> suit != Clubs && suit != Spades
  {
    suit == Hearts || suit == Diamonds
  }

  /** One card red and the other black: exactly one of the two is a club or
      a spade, so never two cards of one suit. */
  predicate IsAlternatingColor(a: Card, b: Card)
    ensures IsAlternatingColor(a, b) <==>
      ((a.suit == Clubs || a.suit == Spades) != (b.suit == Clubs || b.suit == Spades))
    ensures IsAlternatingColor(a, b) ==> a.suit != b.suit
  {
    IsRedSuit(a.suit) != IsRedSuit(b.suit)
  }

  /** The lower card is exactly one rank below the upper one, so an Ace
      never carries a card and a King never lies on one. */
  predicate IsDescendingByOne(upper: Card, lower: Card)
    ensures IsDescendingByOne(upper, lower) ==> upper.rank > 1 && lower.rank < 13
  {
    upper.rank == lower.rank + 1
  }

  /** `lower` may lie directly on `upper` in a tableau run. */
  predicate Follows(upper: Card, lower: Card)
    ensures Follows(upper, lower) ==> upper.suit != lower.suit && lower.rank < upper.rank
  {
    IsAlternatingColor(upper, lower) && IsDescendingByOne(upper, lower)
  }

  /** A movable tableau run: non-empty, face up, and each card one rank
      below the card under it and of the other colour. */
  predicate IsValidTableauStack(cards: seq<Card>)
    ensures IsValidTableauStack(cards) ==> |cards| > 0 && cards[0].faceUp && Top(cards).faceUp
  {
    |cards| > 0 &&
    AllFaceUp(cards) &&
    forall i :: 0 <= i < |cards| - 1 ==> Follows(cards[i], cards[i + 1])
  }

  /** The loop of the source, proved to decide exactly IsValidTableauStack. */
  method CheckTableauStack(cards: seq<Card>) returns (ok: bool)
    ensures ok == IsValidTableauStack(cards)
  {
    if |cards| == 0 {
      return false;
    }
    var k := 0;
    while k < |cards|
      invariant 0 <= k <= |cards|
      invariant AllFaceUp(cards[..k])
    {
      if !cards[k].faceUp {
        return false;
      }
      k := k + 1;
    }
    assert cards[..k] == cards;
    for i := 0 to |cards| - 1
      invariant forall m :: 0 <= m < i ==> Follows(cards[m], cards[m + 1])
    {
      if !IsAlternatingColor(cards[i], cards[i + 1]) {
        return false;
      }
      if !IsDescendingByOne(cards[i], cards[i + 1]) {
        return false;
      }
    }
    return true;
  }

  /** The cards carried when `cardIndex` of a tableau pile is picked up. */
  function RunFrom(cards: seq<Card>, cardIndex: nat): seq<Card> {
    Slice(cards, cardIndex, |cards|)
  }

  /** Only the bottom card of the carried run is compared with the
      destination; a card index past the end carries nothing and is refused. */
  predicate IsValidTableauToTableauMove(s: GameState, fromPileIndex: nat, cardIndex: nat, toPileIndex: nat)
    ensures IsValidTableauToTableauMove(s, fromPileIndex, cardIndex, toPileIndex) ==>
      fromPileIndex != toPileIndex && fromPileIndex < |s.tableau| && toPileIndex < |s.tableau| &&
      cardIndex < |s.tableau[fromPileIndex].cards| && s.tableau[fromPileIndex].cards[cardIndex].faceUp
  {
    if fromPileIndex == toPileIndex then false
    else if fromPileIndex >= |s.tableau| || toPileIndex >= |s.tableau| then false
    else
      var moving := RunFrom(s.tableau[fromPileIndex].cards, cardIndex);
      if !IsValidTableauStack(moving) then false
      else
        var destination := s.tableau[toPileIndex].cards;
        if |destination| == 0 then moving[0].rank == 13
        else Follows(Top(destination), moving[0])
  }

  /** An Ace goes only on an empty foundation and every other card only on
      a started one. */
  predicate CanPlaceOnFoundation(card: Card, foundationCards: seq<Card>)
    ensures CanPlaceOnFoundation(card, foundationCards) ==> (card.rank == 1 <==> |foundationCards| == 0)
  {
    if |foundationCards| == 0 then card.rank == 1
    else Top(foundationCards).suit == card.suit && card.rank == Top(foundationCards).rank + 1
  }

  /** Only a tableau or waste source, and only its exposed card. */
  predicate IsValidToFoundationMove(s: GameState, from: Location, foundationIndex: nat)
    ensures IsValidToFoundationMove(s, from, foundationIndex) ==>
      foundationIndex < |s.foundations| &&
      (from.pileKind == Tableau || from.pileKind == Waste) &&
      (from.pileKind == Tableau ==>
         from.pileIndex.Some? && from.cardIndex.Some? && from.pileIndex.value < |s.tableau| &&
         from.cardIndex.value + 1 == |s.tableau[from.pileIndex.value].cards|) &&
      (from.pileKind == Waste ==> |s.waste.cards| > 0)
  {
    if foundationIndex >= |s.foundations| then false
    else
      var foundation := s.foundations[foundationIndex].cards;
      if from.pileKind == Tableau then
        if from.pileIndex.None? || from.cardIndex.None? then false
        else if from.pileIndex.value >= |s.tableau| then false
        else
          var cards := s.tableau[from.pileIndex.value].cards;
          var ci := from.cardIndex.value;
          if ci >= |cards| || !cards[ci].faceUp || ci != |cards| - 1 then false
          else CanPlaceOnFoundation(cards[ci], foundation)
      else if from.pileKind == Waste then
        if |s.waste.cards| == 0 then false
        else CanPlaceOnFoundation(Top(s.waste.cards), foundation)
      else false
  }

  /** Only the kind and the pile index of `to` are consulted. */
  predicate IsValidWasteMoves(s: GameState, to: Location)
    ensures IsValidWasteMoves(s, to) ==>
      |s.waste.cards| > 0 && to.pileIndex.Some? &&
      (to.pileKind == Tableau ==> to.pileIndex.value < |s.tableau|) &&
      (to.pileKind == Foundation ==> to.pileIndex.value < |s.foundations|) &&
      (to.pileKind == Tableau || to.pileKind == Foundation)
  {
    if |s.waste.cards| == 0 || to.pileIndex.None? then false
    else
      var wasteTop := Top(s.waste.cards);
      if to.pileKind == Tableau then
        if to.pileIndex.value >= |s.tableau| then false
        else
          var destination := s.tableau[to.pileIndex.value].cards;
          if |destination| == 0 then wasteTop.rank == 13
          else Follows(Top(destination), wasteTop)
      else if to.pileKind == Foundation then
        IsValidToFoundationMove(s, Location(Waste, None, None), to.pileIndex.value)
      else false
  }

  // ---------------------------------------------------------------------
  // What the predicates guarantee

  /** Along a run the rank drops by one per card and the colour flips. */
  lemma {:induction false} RunShape(cards: seq<Card>, i: nat)
    requires IsValidTableauStack(cards)
    requires i < |cards|
    ensures cards[i].rank == cards[0].rank - i
    ensures IsRedSuit(cards[i].suit) == (IsRedSuit(cards[0].suit) != (i % 2 == 1))
  {
    if i > 0 {
      RunShape(cards, i - 1);
      assert Follows(cards[i - 1], cards[i]);
    }
  }

  /** A run holds at most thirteen cards, and one of thirteen starts with a
      King and ends with an Ace. */
  lemma RunAtMostThirteen(cards: seq<Card>)
    requires IsValidTableauStack(cards)
    ensures |cards| <= 13
    ensures |cards| == 13 ==> cards[0].rank == 13 && cards[12].rank == 1
  {
    RunShape(cards, |cards| - 1);
  }

  /** Picking up any card of a run picks up a run. */
  lemma RunSuffix(cards: seq<Card>, k: nat)
    requires IsValidTableauStack(cards)
    requires k < |cards|
    ensures IsValidTableauStack(cards[k..])
  {
    var t := cards[k..];
    forall i | 0 <= i < |t| - 1
      ensures Follows(t[i], t[i + 1])
    {
      assert t[i] == cards[k + i] && t[i + 1] == cards[k + i + 1];
    }
  }

  /** A run laid on a run whose top card it follows forms one run. */
  lemma RunJoin(a: seq<Card>, b: seq<Card>)
    requires IsValidTableauStack(a) && IsValidTableauStack(b)
    requires Follows(Top(a), b[0])
    ensures IsValidTableauStack(a + b)
  {
    var c := a + b;
    forall i | 0 <= i < |c| - 1
      ensures Follows(c[i], c[i + 1])
    {
      if i < |a| - 1 {
        assert c[i] == a[i] && c[i + 1] == a[i + 1];
      } else if i == |a| - 1 {
        assert c[i] == Top(a) && c[i + 1] == b[0];
      } else {
        assert c[i] == b[i - |a|] && c[i + 1] == b[i - |a| + 1];
      }
    }
  }

  /** The tableau-to-tableau rule, read as conditions on the board: the
      carried cards are the pile from `cardIndex` up, they form a run, and
      its bottom card is a King on an empty pile or follows the top card of
      the destination. */
  lemma TableauMoveRule(s: GameState, fromPileIndex: nat, cardIndex: nat, toPileIndex: nat)
    ensures IsValidTableauToTableauMove(s, fromPileIndex, cardIndex, toPileIndex) <==>
      fromPileIndex != toPileIndex &&
      fromPileIndex < |s.tableau| && toPileIndex < |s.tableau| &&
      cardIndex < |s.tableau[fromPileIndex].cards| &&
      var source := s.tableau[fromPileIndex].cards;
      var destination := s.tableau[toPileIndex].cards;
      IsValidTableauStack(source[cardIndex..]) &&
      (|destination| == 0 ==> source[cardIndex].rank == 13) &&
      (|destination| > 0 ==> IsRedSuit(Top(destination).suit) != IsRedSuit(source[cardIndex].suit)
                              && Top(destination).rank == source[cardIndex].rank + 1)
  {
  }

  /** A legal tableau move leaves a run on the destination: the destination's
      old top card (if any) and everything carried onto it. */
  lemma TableauMoveBuildsRun(s: GameState, fromPileIndex: nat, cardIndex: nat, toPileIndex: nat)
    requires IsValidTableauToTableauMove(s, fromPileIndex, cardIndex, toPileIndex)
    ensures var destination := s.tableau[toPileIndex].cards;
            var moving := s.tableau[fromPileIndex].cards[cardIndex..];
            (|destination| == 0 ==> IsValidTableauStack(moving) && moving[0].rank == 13) &&
            (|destination| > 0 && Top(destination).faceUp ==> IsValidTableauStack([Top(destination)] + moving))
  {
    var destination := s.tableau[toPileIndex].cards;
    var moving := s.tableau[fromPileIndex].cards[cardIndex..];
    if |destination| > 0 && Top(destination).faceUp {
      RunJoin([Top(destination)], moving);
    }
  }

  /** Foundation order: the pile is Ace, 2, 3, ... of the suit of its Ace. */
  predicate FoundationOrdered(cards: seq<Card>) {
    forall i :: 0 <= i < |cards| ==> cards[i].rank == i + 1 && cards[i].suit == cards[0].suit
  }

  /** An empty foundation takes exactly the Aces; a started one takes exactly
      the next rank of its own suit. */
  lemma FoundationPlacement(card: Card, foundationCards: seq<Card>)
    requires FoundationOrdered(foundationCards)
    ensures CanPlaceOnFoundation(card, foundationCards) <==>
      card.rank == |foundationCards| + 1 &&
      (|foundationCards| > 0 ==> card.suit == foundationCards[0].suit)
  {
  }

  /** Placing a card the rule accepts keeps the foundation in order. */
  lemma PlacementKeepsFoundationOrdered(card: Card, foundationCards: seq<Card>)
    requires FoundationOrdered(foundationCards)
    requires CanPlaceOnFoundation(card, foundationCards)
    ensures FoundationOrdered(foundationCards + [card])
  {
    var f := foundationCards + [card];
    forall i | 0 <= i < |f|
      ensures f[i].rank == i + 1 && f[i].suit == f[0].suit
    {
      if i == |foundationCards| && i > 0 {
        assert Top(foundationCards) == foundationCards[i - 1];
      }
    }
  }

  /** An ordered foundation never holds more than the thirteen cards of one
      suit, and once it holds thirteen it accepts no further card. */
  lemma FoundationAtMostThirteen(cards: seq<Card>)
    requires FoundationOrdered(cards)
    ensures |cards| <= 13
    ensures |cards| == 13 ==> forall card: Card :: !CanPlaceOnFoundation(card, cards)
  {
    if |cards| > 0 {
      assert cards[|cards| - 1].rank == |cards|;
    }
  }

  /** Only the exposed card may go to a foundation: the face-up top card of
      an existing tableau pile, or the top card of a non-empty waste. */
  lemma ToFoundationRule(s: GameState, from: Location, foundationIndex: nat)
    ensures IsValidToFoundationMove(s, from, foundationIndex) <==>
      foundationIndex < |s.foundations| &&
      var foundation := s.foundations[foundationIndex].cards;
      ((from.pileKind == Tableau && from.pileIndex.Some? && from.cardIndex.Some? &&
        from.pileIndex.value < |s.tableau| &&
        var cards := s.tableau[from.pileIndex.value].cards;
        from.cardIndex.value + 1 == |cards| && Top(cards).faceUp &&
        CanPlaceOnFoundation(Top(cards), foundation)) ||
       (from.pileKind == Waste && |s.waste.cards| > 0 &&
        CanPlaceOnFoundation(Top(s.waste.cards), foundation)))
  {
  }

  /** A waste move needs a waste card and a pile index; onto a tableau pile
      it obeys the same placement as a one-card run, onto a foundation the
      foundation rule, and any other target is refused. */
  lemma WasteMoveRule(s: GameState, to: Location)
    ensures IsValidWasteMoves(s, to) <==>
      |s.waste.cards| > 0 && to.pileIndex.Some? &&
      ((to.pileKind == Tableau && to.pileIndex.value < |s.tableau| &&
        var destination := s.tableau[to.pileIndex.value].cards;
        (|destination| == 0 ==> Top(s.waste.cards).rank == 13) &&
        (|destination| > 0 ==> Follows(Top(destination), Top(s.waste.cards)))) ||
       (to.pileKind == Foundation && to.pileIndex.value < |s.foundations| &&
        CanPlaceOnFoundation(Top(s.waste.cards), s.foundations[to.pileIndex.value].cards)))
  {
  }

  /** Onto a tableau pile the waste top is placed exactly as a one-card run
      would be: lay it, face up, on a pile of its own after the others, and
      the waste rule and the tableau-to-tableau rule give the same answer. */
  lemma WasteToTableauIsOneCardRun(s: GameState, to: nat, cardIndex: Option<nat>)
    requires |s.waste.cards| > 0
    ensures var extended := s.(tableau := s.tableau + [Pile(Tableau, [Top(s.waste.cards).(faceUp := true)])]);
      IsValidWasteMoves(s, Location(Tableau, Some(to), cardIndex)) <==>
      IsValidTableauToTableauMove(extended, |s.tableau|, 0, to)
  {
    var w := Top(s.waste.cards).(faceUp := true);
    var extended := s.(tableau := s.tableau + [Pile(Tableau, [w])]);
    assert RunFrom(extended.tableau[|s.tableau|].cards, 0) == [w];
    assert IsValidTableauStack([w]);
    if to < |s.tableau| {
      assert extended.tableau[to] == s.tableau[to];
    }
  }
}

=== FILE: types.dfy ===
/** The data model of the game: cards, piles, the board and the move
    requests that the user interface hands to the engine, together with
    the small sequence helpers every other module shares (the JavaScript
    `slice`, orientation changes, and the bag of card ids on a board). */
module Types {

  datatype Option<+T> = None | Some(value: T)

  datatype Suit = Clubs | Diamonds | Hearts | Spades

  /** 1 is the Ace, 11 the Jack, 12 the Queen and 13 the King. */
  type Rank = r: int | 1 <= r <= 13 witness 1

  /** Cards are values; the id is unique within a deal. */
  datatype Card = Card(id: string, suit: Suit, rank: Rank, faceUp: bool)

  datatype PileKind = Tableau | Foundation | Stock | Waste

  /** Index 0 is the bottom of the pile; the last card is the exposed top. */
  datatype Pile = Pile(kind: PileKind, cards: seq<Card>)

  datatype Status = InProgress | Won

  datatype GameState = GameState(
    tableau: seq<Pile>,
    foundations: seq<Pile>,
    stock: Pile,
    waste: Pile,
    moveCount: nat,
    status: Status)

  /** A selection or drop point. `pileIndex` is absent for the stock and the
      waste; `cardIndex` names a card and, on a tableau, everything above it. */
  datatype Location = Location(pileKind: PileKind, pileIndex: Option<nat>, cardIndex: Option<nat>)

  /** `count` optionally bounds how many cards of a tableau run are carried. */
  datatype Move = Move(from: Location, to: Location, count: Option<nat>)

  /** The exposed card of a non-empty pile. */
  function Top(cards: seq<Card>): Card
    requires |cards| > 0
  {
    cards[|cards| - 1]
  }

  /** JavaScript's `s.slice(start, end)` for non-negative arguments: both
      bounds are clamped to the length, and a reversed range is empty. */
  function Slice<T>(s: seq<T>, start: nat, end: nat): (r: seq<T>)
    ensures start <= end <= |s| ==> r == s[start..end]
    ensures start >= |s| ==> r == []
    ensures start <= |s| <= end ==> r == s[start..]
  {
    var a := if start <= |s| then start else |s|;
    var b := if end <= |s| then end else |s|;
    if a <= b then s[a..b] else []
  }

  predicate AllFaceUp(cards: seq<Card>) {
    forall i :: 0 <= i < |cards| ==> cards[i].faceUp
  }

  predicate AllFaceDown(cards: seq<Card>) {
    forall i :: 0 <= i < |cards| ==> !cards[i].faceUp
  }

  /** The same cards, every one turned face down. */
  function FaceDown(cards: seq<Card>): seq<Card> {
    seq(|cards|, i requires 0 <= i < |cards| => cards[i].(faceUp := false))
  }

  function Reverse<T>(s: seq<T>): seq<T> {
    seq(|s|, i requires 0 <= i < |s| => s[|s| - 1 - i])
  }

  /** The ids of a sequence of cards, in order. */
  function Ids(cards: seq<Card>): seq<string> {
    seq(|cards|, i requires 0 <= i < |cards| => cards[i].id)
  }

  lemma IdsAppend(a: seq<Card>, b: seq<Card>)
    ensures Ids(a + b) == Ids(a) + Ids(b)
  {
    assert forall i :: 0 <= i < |a + b| ==> Ids(a + b)[i] == (Ids(a) + Ids(b))[i];
  }

  lemma IdsFaceDown(cards: seq<Card>)
    ensures Ids(FaceDown(cards)) == Ids(cards)
  {
  }

  /** All cards of a sequence of piles, pile after pile, bottom to top. */
  function Flatten(ps: seq<Pile>): seq<Card> {
    if |ps| == 0 then [] else Flatten(ps[..|ps| - 1]) + ps[|ps| - 1].cards
  }

  function CardsBag(cards: seq<Card>): multiset<string> {
    multiset(Ids(cards))
  }

  function PilesBag(ps: seq<Pile>): multiset<string> {
    CardsBag(Flatten(ps))
  }

  /** Every card id on the board, counted with multiplicity. */
  function Bag(s: GameState): multiset<string> {
    PilesBag(s.tableau) + PilesBag(s.foundations) + CardsBag(s.stock.cards) + CardsBag(s.waste.cards)
  }

  lemma CardsBagAppend(a: seq<Card>, b: seq<Card>)
    ensures CardsBag(a + b) == CardsBag(a) + CardsBag(b)
  {
    IdsAppend(a, b);
  }

  lemma BagCancel(x: multiset<string>, y: multiset<string>, z: multiset<string>)
    requires x + y == z + y
    ensures x == z
  {
    assert forall e :: x[e] == (x + y)[e] - y[e];
    assert forall e :: z[e] == (z + y)[e] - y[e];
  }

  /** Replacing one pile swaps that pile's cards in the bag and leaves the
      rest of the bag alone. */
  lemma {:induction false} PilesBagUpdate(ps: seq<Pile>, i: nat, p: Pile)
    requires i < |ps|
    ensures PilesBag(ps[i := p]) + CardsBag(ps[i].cards) == PilesBag(ps) + CardsBag(p.cards)
    decreases |ps|
  {
    var n := |ps|;
    var qs := ps[i := p];
    CardsBagAppend(Flatten(qs[..n - 1]), qs[n - 1].cards);
    CardsBagAppend(Flatten(ps[..n - 1]), ps[n - 1].cards);
    assert PilesBag(qs) == PilesBag(qs[..n - 1]) + CardsBag(qs[n - 1].cards);
    assert PilesBag(ps) == PilesBag(ps[..n - 1]) + CardsBag(ps[n - 1].cards);
    if i == n - 1 {
      assert qs[..n - 1] == ps[..n - 1];
    } else {
      var front := ps[..n - 1];
      assert qs[..n - 1] == front[i := p];
      assert qs[n - 1] == ps[n - 1] && front[i] == ps[i];
      PilesBagUpdate(front, i, p);
      var last := CardsBag(ps[n - 1].cards);
      calc {
        PilesBag(qs) + CardsBag(ps[i].cards);
        PilesBag(front[i := p]) + last + CardsBag(ps[i].cards);
        (PilesBag(front[i := p]) + CardsBag(front[i].cards)) + last;
        (PilesBag(front) + CardsBag(p.cards)) + last;
        PilesBag(ps) + CardsBag(p.cards);
      }
    }
  }

  /** Pushing one card onto a pile adds its id to the bag. */
  lemma PilesBagPush(ps: seq<Pile>, i: nat, x: Card)
    requires i < |ps|
    ensures PilesBag(ps[i := ps[i].(cards := ps[i].cards + [x])]) == PilesBag(ps) + multiset{x.id}
  {
    var p := ps[i].(cards := ps[i].cards + [x]);
    PilesBagUpdate(ps, i, p);
    CardsBagAppend(ps[i].cards, [x]);
    assert Ids([x]) == [x.id];
    BagCancel(PilesBag(ps[i := p]), CardsBag(ps[i].cards), PilesBag(ps) + multiset{x.id});
  }

  /** Popping the top card of a pile removes its id from the bag. */
  lemma PilesBagPop(ps: seq<Pile>, i: nat)
    requires i < |ps| && |ps[i].cards| > 0
    ensures var cards := ps[i].cards;
      PilesBag(ps[i := ps[i].(cards := cards[..|cards| - 1])]) + multiset{Top(cards).id} == PilesBag(ps)
  {
    var cards := ps[i].cards;
    var below := cards[..|cards| - 1];
    var p := ps[i].(cards := below);
    PilesBagUpdate(ps, i, p);
    assert cards == below + [Top(cards)];
    CardsBagAppend(below, [Top(cards)]);
    assert Ids([Top(cards)]) == [Top(cards).id];
    BagCancel(PilesBag(ps[i := p]) + multiset{Top(cards).id}, CardsBag(below), PilesBag(ps));
  }

  /** Replacing a pile by cards with the same ids keeps the bag. */
  lemma PilesBagSameIds(ps: seq<Pile>, i: nat, p: Pile)
    requires i < |ps| && Ids(p.cards) == Ids(ps[i].cards)
    ensures PilesBag(ps[i := p]) == PilesBag(ps)
  {
    PilesBagUpdate(ps, i, p);
    BagCancel(PilesBag(ps[i := p]), CardsBag(p.cards), PilesBag(ps));
  }

  /** Popping the top card of a card sequence. */
  lemma CardsBagPop(cards: seq<Card>)
    requires |cards| > 0
    ensures CardsBag(cards[..|cards| - 1]) + multiset{Top(cards).id} == CardsBag(cards)
  {
    assert cards == cards[..|cards| - 1] + [Top(cards)];
    CardsBagAppend(cards[..|cards| - 1], [Top(cards)]);
    assert Ids([Top(cards)]) == [Top(cards).id];
  }

  lemma CardsBagPush(cards: seq<Card>, x: Card)
    ensures CardsBag(cards + [x]) == CardsBag(cards) + multiset{x.id}
  {
    CardsBagAppend(cards, [x]);
    assert Ids([x]) == [x.id];
  }
}
